=== FILE: README.md ===
# A model of the spcli typing-session engine

spcli is a terminal trainer for shuangpin, the two-key way of typing
pinyin. It shows a passage of Chinese text. The learner types each syllable
as two keys, one for its initial and one for its final. Every key is
checked against a key map. This project models the engine behind that
loop in Dafny and proves properties of it:

- **Syllables** (`src/pin.rs`). `Pin::split` cuts a plain spelling at its
  first vowel. `Character::new` builds a unit. `Passage::new` pairs the
  glyphs of a passage with their readings, after a leading space. Text is
  `seq<char>`. Byte lengths follow UTF-8 (module `Text`). `trim` and
  `split` follow the Rust standard library.
- **Line wrapping** (`Passage::wrap`). The greedy slicer is modelled as
  written. The unit that overflows a line closes that line, and its width is
  charged to the next line. The glyph width function is a parameter of the
  `Measure` record.
- **The key press** (`Input::check_input`, `process_key_event`,
  `process_ctrl_key_event`). A `Session` record and the pure step function
  `Sessions.HandleKey` skip marks, judge the key, and update statuses,
  cursor, phase and counter. They also detect the end of the session and
  compute the keyboard highlight. Every source panic on this path becomes a
  `Crashed(reason)` outcome: a missing unit, a phoneme missing from the key
  map, or a byte slice inside a character. `SessionInvariant` states what
  every reachable session satisfies and proves that each key keeps it.
- **Key-map files** (`KeyMap::open` without the file read). The parse is
  over the file's text. An unreadable line is a `ParseError` with its line
  number.
- **The counter** (`Counter`). Instants are natural numbers of nanoseconds,
  passed in explicitly.
- **Screen arithmetic and the keyboard** (`src/render.rs`). This covers the
  passage rectangle, the live line and the rows each line takes, the speed
  and clock figures, and `Keyboard::reverse_mapping` over the default
  three-row layout.
- **Scenarios** (module `Scenarios`). These are whole key sequences on
  small passages.

### Behaviour worth knowing

- **Wrapping.** The unit that overflows a line stays at the end of that
  line, and the next line starts after it (`src/pin.rs:84-88`).
  `LineWrap.Wrapped` describes this. `LineWrap.WrappedLinesFit` states
  the bound that holds: every line minus its last unit fits.
- **End of a session.** The end test runs only after a right final. It
  ends the session once the passed unit is within two units of the end of
  the passage (`src/input.rs:176`). A passage whose last two units are
  both syllables therefore ends before its last syllable is typed: the
  second-to-last final ends the session.
  `Scenarios.EndsBeforeLastSyllable` shows this on "你好". A passage
  whose last unit is a mark, or whose only syllable is its last unit,
  ends after its last syllable.
- **The "er" rule and the keyboard highlight.** The rule applies to the
  key check only (`src/input.rs:137-139`, `154-156`). The highlight
  looks up the plain half (`src/input.rs:214-228`). An empty half under a
  leader other than `*` looks up the leader character as a phoneme name.
  `Sessions.NextIgnoresEr` and `Sessions.NextLeaderEntry` state where the
  two lookups part. `Sessions.NextMatchesExpected` states that they agree
  everywhere else.
- **Session start.** A new session sets no status (`src/input.rs:22-40`).
  In a fresh passage every unit stays `Future`, the first syllable
  included. `SessionInvariant.CursorStatus` admits `Future` at the cursor
  for that reason.

## Model

| member | source | states |
|---|---|---|
| `Syllables.Split` | src/pin.rs:206-226 | initial ++ final is the spelling; the initial holds no vowel; the final is empty or opens with a vowel, and is empty exactly when the spelling has no vowel |
| `Syllables.SplitUnique` | src/pin.rs:206-226 | any cut with a vowel-free front and a vowel-led or empty back is the one `Split` makes |
| `Syllables.PinNew` | src/pin.rs:199-205 | keeps both spellings; its halves rebuild the plain spelling with a vowel-free initial and an empty or vowel-led final, which `Syllables.SplitUnique` shows is the cut `Pin::split` makes |
| `Syllables.CharacterNew` | src/pin.rs:133-140 | a unit is a mark exactly when it has no reading, and it starts `Future` |
| `Syllables.Pair` | src/pin.rs:40-48 | unit i pairs glyph i with reading i, and stops when either runs out |
| `Syllables.PassageNew` | src/pin.rs:37-52 | unit 0 is the prepended space; unit i > 0 is text character i-1; unit i carries `Pin::new` of reading i, so marks are the units without a reading; every unit starts `Future` |
| `Text.Trim` | src/input.rs:263 | the result has no whitespace at either end; it is empty exactly when the input is all whitespace; a trimmed string is unchanged |
| `Text.TrimPadded` | src/input.rs:267-268 | trimming removes exactly the whitespace margins around a trimmed string |
| `Text.SplitOn` | src/input.rs:262 | the pieces hold no separator and join back to the input |
| `Text.SplitJoin` | src/input.rs:262 | splitting undoes joining when no piece holds the separator |
| `Text.Utf8Len` | src/pin.rs:81 | the byte length lies between the character count and four times it, and equals the count for ASCII text |
| `LineWrap.UnitWidth` | src/pin.rs:78-83 | a unit's width is its glyph width, or the plain spelling's byte length plus one when pinyin is shown and that is wider |
| `LineWrap.Wrap` | src/pin.rs:68-95 | there is at least one line; the lines concatenate back to the units; every line but the last is closed by the unit that overflowed, and the last line fits |
| `LineWrap.WrapUnique` | src/pin.rs:68-95 | two greedy wraps of the same units are the same lines |
| `LineWrap.OnlyLineIsWhole` | src/pin.rs:84-93 | if one greedy wrap is a single line, every greedy wrap of those units is |
| `LineWrap.ShorterBreakImpossible` | src/pin.rs:84-88 | no line closes earlier than the first overflowing unit |
| `LineWrap.WrappedLinesFit` | src/pin.rs:84-88 | every line minus its last unit fits within the width budget |
| `KeyMaps.ReadLine` | src/input.rs:263-284 | a line is skipped exactly when it is blank or starts with `#` after trimming; otherwise it has no ':' exactly when it is refused for that reason |
| `KeyMaps.ReadPair` | src/input.rs:270-284 | only `leader`, `leader_er` and `split_er` can fail, and only on an empty value |
| `KeyMaps.ReadLineMeaning` | src/input.rs:263-284 | for a line `p : v` with any blanks around `p` and `v` and anything after a second ':': `leader` sets the leader to v's first character, `leader_er` binds "er" to it, `split_er` is on exactly when v opens with '1', each of the three fails on an empty v, `name` takes v, and any other p is bound to v's characters |
| `KeyMaps.ParseLines` | src/input.rs:262-285 | the parse fails at the first unreadable line; otherwise each setting and each phoneme's keys come from the last line that gives them, and from the start state when none does |
| `KeyMaps.Parse` | src/input.rs:256-292 | the same over the file text cut at '\n', from leader 'o', "er" split on, an empty name and no phonemes |
| `Counters.NewCounter` | src/input.rs:306-316 | zero typed and zero mistakes, unlocked, with zero elapsed at creation |
| `Counters.AddTyped` | src/input.rs:318-320 | typed rises by one and nothing else changes |
| `Counters.AddMistake` | src/input.rs:322-324 | mistakes rise by one and nothing else changes |
| `Counters.Interval` | src/input.rs:342-349 | elapsed is now minus start while unlocked, and end minus start once locked |
| `Counters.Lock` | src/input.rs:351-354 | after locking, the interval read at any later instant is the time up to the lock |
| `Counters.IntervalGrows` | src/input.rs:342-349 | while unlocked, the interval never shrinks as time passes |
| `Counters.Seconds` | src/render.rs:196 | whole seconds, rounded down |
| `Sessions.WordsCountsReadings` | src/input.rs:25 | the fold of `total_words` counts exactly the positions whose unit has a reading |
| `Sessions.SessionNew` | src/input.rs:22-40 | the cursor is at the leading space with the initial expected; the total is the number of units with a reading; the counts start at zero |
| `Sessions.SkipMarks` | src/input.rs:124-128 | every mark right after the cursor becomes `Passed` and the cursor moves onto it; it stops at the first unit with a reading or at the end; nothing else changes |
| `Sessions.SkipMarksIdempotent` | src/input.rs:124-128 | skipping again with no key between changes nothing |
| `Sessions.FirstByte` | src/input.rs:144 | the one-byte slice is a character exactly when the string is non-empty and opens with an ASCII character, and then it is that character |
| `Sessions.ExpectedPhoneme` | src/input.rs:134-160 | only a zero initial under a leader other than `*` is judged by the key itself; only a zero initial under `*` whose final does not open with an ASCII character fails; outside the "er" rule a non-empty initial and every final name themselves |
| `Sessions.Accepts` | src/input.rs:134-160 | a zero initial under a leader other than `*` accepts that key and no other; under `*` it takes the keys of the final's first letter, crashing when that is not one byte or has no entry; under the "er" rule the halves take the keys of "e" and "r", crashing when those are unbound; otherwise each half takes the keys bound to it, and a missing binding is a crash |
| `Sessions.VerdictMeaning` | src/input.rs:122-131 | the key is judged against the first unit with a reading after the cursor, and the source panics exactly when only marks are left |
| `Sessions.Highlight` | src/input.rs:230-238 | the pressed key is tagged right or wrong, the next phoneme's keys are tagged as expected, and "expected" wins where they meet |
| `Sessions.Highlighted` | src/input.rs:213-242 | a continuing key press redraws with the pressed key tagged |
| `Sessions.HighlightedKeys` | src/input.rs:213-238 | the redraw crashes exactly when the next phoneme cannot be named; otherwise the highlight holds the pressed key and the keys bound to that phoneme, and no other key |
| `Sessions.NextMatchesExpected` | src/input.rs:134-160 | outside the "er" rule, and when the half is not an empty one under a non-`*` leader, the highlight looks up the same phoneme the next key's check uses |
| `Sessions.NextIgnoresEr` | src/input.rs:137-139 | under the "er" rule the check wants "e" then "r", while the highlight shows the leader's entry (or "e" under `*`) and then "er" |
| `Sessions.NextLeaderEntry` | src/input.rs:214-226 | an empty half under a leader other than `*` highlights the keys of the phoneme named by the leader character, while the check compares the key with the leader (initial) or looks up the empty phoneme (final) |
| `Sessions.Mistaken` | src/input.rs:166-170 | a wrong key marks the unit wrong in the current half and adds one mistake; the cursor, phase and other units stay |
| `Sessions.HalfTyped` | src/input.rs:162-166 | a right initial half-types the unit and switches to the final; the counter and other units stay |
| `Sessions.Finish` | src/input.rs:176-181 | the session ends, the counter is locked at that instant, and the summary is shown |
| `Sessions.MoveOn` | src/input.rs:203-204 | the next syllable is being typed and its initial is expected; the pressed key is tagged right, or as expected when the next syllable wants it too |
| `Sessions.FinalPassed` | src/input.rs:172-205 | a right final passes the unit and counts one word; units outside the passed unit and the marks after it are unchanged, except that the next syllable becomes `Typing` when the session goes on |
| `Sessions.AfterPassed` | src/input.rs:176-204 | after a unit is passed, the readings stay, the cursor lands at or after it and before the end, only the units between it and the new cursor's next unit change, and the counter keeps its counts |
| `Sessions.AfterPassedEnds` | src/input.rs:176-204 | the marks skipped after the passed unit are `Passed`; the summary is shown exactly when the passed unit is within two of the end or only marks follow, and then the counter is locked at that instant; otherwise the next syllable is being typed from its initial, and the pressed key is tagged right or as expected |
| `Sessions.FinalPassedMarks` | src/input.rs:184-201 | after a right final the cursor moves past the passed unit, and every mark it moved over is `Passed` |
| `Sessions.FinalPassedEnds` | src/input.rs:172-201 | the session ends, with the counter locked and the summary shown, exactly when the passed unit is within two of the end or only marks follow; ending changes no unit past the cursor |
| `Sessions.FinalPassedGoesOn` | src/input.rs:183-204 | when the session does not end, the next unit is a syllable being typed from its initial, the end flag and lock stay, and the pressed key is tagged right or as expected |
| `Sessions.CheckInput` | src/input.rs:122-245 | a failed lookup crashes; otherwise a wrong key, a right initial or a right final leads to the matching outcome above |
| `Sessions.HandleKey` | src/input.rs:92-120 | Ctrl-Q and only Ctrl-Q quits; Ctrl-R stops and asks for a restart; keys are ignored after the end; a plain character is checked; every other Ctrl key, any other modifier set and a non-character key leave the session unchanged and draw nothing |
| `SessionInvariant.NewSessionInv` | src/input.rs:22-40 | a fresh session over a fresh passage satisfies the session invariant |
| `SessionInvariant.TypedWithinTotal` | src/input.rs:25 | typed words never exceed the passage's words |
| `SessionInvariant.SkipKeepsCount` | src/input.rs:124-128 | skipping marks leaves the count of words up to the cursor unchanged |
| `SessionInvariant.StayKeepsInv` | src/input.rs:162-170 | a key that leaves the cursor in place keeps the invariant |
| `SessionInvariant.MistakenKeepsInv` | src/input.rs:166-170 | a wrong key keeps the invariant |
| `SessionInvariant.HalfTypedKeepsInv` | src/input.rs:162-166 | a right initial keeps the invariant |
| `SessionInvariant.CountAfterFinal` | src/input.rs:172-175 | passing one syllable and the marks after it adds one word up to the cursor |
| `SessionInvariant.FinalPassedStatuses` | src/input.rs:172-205 | after a right final, the statuses still fit the invariant |
| `SessionInvariant.FinalPassedCounts` | src/input.rs:172-205 | after a right final, the counter still agrees with the units passed |
| `SessionInvariant.FinalPassedPhase` | src/input.rs:172-205 | after a right final, the phase and the end flag still fit the invariant |
| `SessionInvariant.FinalPassedKeepsInv` | src/input.rs:172-205 | a right final keeps the invariant |
| `SessionInvariant.CheckInputKeepsInv` | src/input.rs:122-245 | every checked key that does not crash keeps the invariant |
| `SessionInvariant.StepKeepsInv` | src/input.rs:92-120 | every key event that does not quit or crash keeps the invariant |
| `SessionInvariant.CountersMove` | src/input.rs:162-209 | per key, the total stays; typed and mistakes each rise by at most one, and never both |
| `SessionInvariant.SyllableTyped` | src/input.rs:162-205 | a right initial and then a right final count one word, add no mistake, and move the cursor past exactly one more syllable |
| `Screen.IsLiveLine` | src/render.rs:60 | the live line holds the last passed unit or the unit being typed, or is an empty line where that unit would be |
| `Screen.RowStep` | src/render.rs:108-111 | a line takes two rows when pinyin is shown above it, one otherwise |
| `Screen.GlyphRow` | src/render.rs:70-103 | glyphs are drawn on the last row of their line |
| `Screen.MarkerRow` | src/render.rs:63 | the cursor bar is drawn on the live line's glyph row |
| `Screen.Rows` | src/render.rs:59-112 | lines take between one and two rows each; exactly two with `Always` and one with `Off` |
| `Screen.LiveRows` | src/render.rs:59-112 | in `Live` mode the rows are the lines plus the live lines |
| `Screen.AtMostTwoLive` | src/render.rs:59-112 | a wrapped passage has at most two live lines |
| `Screen.PassageRect` | src/render.rs:142-169 | the box starts two rows down, is centred to within a cell, and is at most 120 wide (exactly 120 past 128 columns); up to 128 columns the margin is 4 cells below 120 columns and 14 from 120 on, and the box fills the rest; the box ends at half the height of a tall terminal, or two rows above the bottom of a short one (the box is four rows shorter than the terminal) |
| `Screen.Speed` | src/render.rs:203-209 | no whole second gives "NaN"; otherwise syllables per minute rounded down, or a panic on a u32 overflow or a zero divisor |
| `Screen.Clock` | src/render.rs:218 | minutes and seconds recombine to the interval, with seconds below 60 |
| `Screen.LockedFiguresStable` | src/render.rs:259-274 | once locked, the summary figures are the same whenever they are drawn |
| `Keyboards.TopBorder` | src/render.rs:332-338 | each top piece is chosen exactly in its own row and column case, the last column checked before the first |
| `Keyboards.BottomBorder` | src/render.rs:339-346 | each bottom piece is chosen exactly in its own case; `SE` closes the last key and any key past the next row's length |
| `Keyboards.AddPhoneme` | src/render.rs:319-326 | one phoneme is added to each listed key once per listing |
| `Keyboards.Invert` | src/render.rs:318-327 | a key's phonemes are those whose key list holds it, counted per listing, whatever the visiting order |
| `Keyboards.PlaceRow` | src/render.rs:329-358 | after a row, its keys are placed as well as all earlier ones |
| `Keyboards.AllPlaced` | src/render.rs:328-359 | once every cell is placed, the keys are exactly the layout's characters |
| `Keyboards.ReverseMapping` | src/render.rs:314-361 | one key per layout character, at the last cell holding it, named by it, with that cell's borders and the phonemes bound to it |
| `Keyboards.DefaultLayoutDistinct` | src/render.rs:306-311 | no character occurs twice in the default layout |
| `Keyboards.KeyboardDefault` | src/render.rs:306-312 | every key of the default layout sits at its own column and row and carries its phonemes |
| `Scenarios.HaoReading` | src/pin.rs:199-226 | "hao" splits into "h" and "ao" |
| `Scenarios.NiReading` | src/pin.rs:199-226 | "ni" splits into "n" and "i" |
| `Scenarios.ZeroInitialReadings` | src/pin.rs:209-214 | "ai" and "er" open with a vowel, so their initial is empty |
| `Scenarios.OneSyllable` | src/input.rs:122-205 | on "好", `h` half-types it with no mistake; `c` then passes it, counts one word and ends the session |
| `Scenarios.ZeroInitial` | src/input.rs:141-146 | on "爱", the leader `o` opens the zero initial |
| `Scenarios.SplitEr` | src/input.rs:137-139 | on "二" with the "er" rule, `r` is a mistake that keeps the phase; `e` then half-types it |
| `Scenarios.NiHaoFirstKey` | src/input.rs:162-166 | on "你好", `n` half-types "你" and changes nothing else |
| `Scenarios.EndsBeforeLastSyllable` | src/input.rs:172-182 | on "你好", passing "你" ends the session with "好" untyped and one of two words counted |
| `Scenarios.ControlKeys` | src/input.rs:108-120 | Ctrl-Q quits and Ctrl-R asks for a restart in any state |

## Left out

- Terminal I/O is not modelled. That covers raw mode, event polling and the read loop, `die`, and all crossterm drawing. The drawing includes border strings, key boxes and colours. The model keeps only what decides the picture: statuses, the highlight map, the rows and the rectangle.
- The `pinyin` crate and `unicode_width` are foreign libraries. Readings come in as a sequence of `Option<Reading>`, and glyph widths as a function in `LineWrap.Measure`.
- `Document::open`, `KeyMap::open`'s file read and the random passage choice are file I/O and randomness. The parser takes the file's text, and the session takes its passage.
- `Instant::now` is a clock. Every instant is an explicit argument.
- The float percentage and the status-bar gap are floating point and byte-length padding for display only.
- `Counters.AddTyped` and `Counters.AddMistake` count without the u32 overflow. Typed words are bounded by the passage's syllables. Mistakes are not bounded by the passage; they would need 2^32 wrong key presses in one session.
- `Keyboards.ReverseMapping`: the phonemes of a key are a multiset. The source's vector order follows hash-map iteration, which is unspecified.
- `Screen.PassageRect`: it requires at least 8 columns and 4 rows. Smaller terminals make the source's `u16` subtractions underflow.
- `Screen.Speed`: a product over `u32` or a seconds count that truncates to zero is an `Err`. This matches a checked build; a release build would wrap the product instead.
- `Keyboards.KeyboardDefault` returns only the key table. The layout rows are the constant `Keyboards.DefaultLayout`.
- `src/cli.rs` (argument parsing), `src/main.rs` (the restart loop) and the `dbg!` at `src/render.rs:347` have no logic to model.
- Panics are not preconditions. A crash on a missing unit or key-map entry is a reachable outcome, so `HandleKey` returns `Crashed` instead of requiring it away.

=== FILE: counters.dfy ===
/** `Counter` (src/input.rs): words typed, mistakes, and the elapsed time,
    which stops growing once the counter is locked at the end of a session.
    Instants are natural numbers of nanoseconds on a monotonic clock. */
module Counters {

  datatype Counter = Counter(
    total: nat,          // words in the passage
    typed: nat,
    mistakes: nat,
    start: nat,
    locked: bool,
    endTime: nat,
    keyMapName: string)

  /** `Instant::duration_since`, which gives zero rather than a negative span. */
  function Since(later: nat, earlier: nat): nat {
    if later >= earlier then later - earlier else 0
  }

  /** `Counter::new` at instant `now`. */
  function NewCounter(total: nat, keyMapName: string, now: nat): (c: Counter)
    ensures c.total == total && c.keyMapName == keyMapName
    ensures c.typed == 0 && c.mistakes == 0 && !c.locked
    ensures Interval(c, now) == 0
  {
    Counter(total, 0, 0, now, false, now, keyMapName)
  }

  /** `add_typed_words`. */
  function AddTyped(c: Counter): (r: Counter)
    ensures r.typed == c.typed + 1
    ensures r.(typed := c.typed) == c
  {
    c.(typed := c.typed + 1)
  }

  /** `add_mistake`. */
  function AddMistake(c: Counter): (r: Counter)
    ensures r.mistakes == c.mistakes + 1
    ensures r.(mistakes := c.mistakes) == c
  {
    c.(mistakes := c.mistakes + 1)
  }

  /** `get_interval` at instant `now`. */
  function Interval(c: Counter, now: nat): (d: nat)
    ensures !c.locked && now >= c.start ==> c.start + d == now
    ensures c.locked && c.endTime >= c.start ==> c.start + d == c.endTime
  {
    if c.locked then Since(c.endTime, c.start) else Since(now, c.start)
  }

  /** `lock` at instant `now`: from then on the interval is frozen at the
      time elapsed up to `now`, whenever it is read. */
  function Lock(c: Counter, now: nat): (r: Counter)
    ensures r.locked
    ensures forall later :: Interval(r, later) == Since(now, c.start)
    ensures r.(locked := c.locked, endTime := c.endTime) == c
  {
    c.(locked := true, endTime := now)
  }

  /** While unlocked, the interval never shrinks as time passes. */
  lemma IntervalGrows(c: Counter, t1: nat, t2: nat)
    requires !c.locked && t1 <= t2
    ensures Interval(c, t1) <= Interval(c, t2)
  {
  }

  /** `Duration::as_secs`: whole seconds. */
  function Seconds(nanos: nat): (s: nat)
    ensures s * 1_000_000_000 <= nanos < (s + 1) * 1_000_000_000
  {
    nanos / 1_000_000_000
  }
}

=== FILE: keyboards.dfy ===
/** `Keyboard` (src/render.rs): the on-screen keyboard, built by inverting the
    key map (phoneme to keys) into key to phonemes over a three-row layout,
    and choosing for every key the border pieces that join it to its
    neighbours. The phonemes of a key are kept as a multiset: the source
    collects them in the iteration order of a hash map, which is arbitrary. */
module Keyboards {

  /** The top border pieces of `key_border::top`. */
  datatype Top = NW | N | NE | TopCT | TopW | TopE

  /** The bottom border pieces of `key_border::bottom`. */
  datatype Bottom = SW | S | SE | BottomCT | BottomW | BottomE

  /** Column and row of a key in the layout. */
  datatype Pos = Pos(col: nat, row: nat)

  /** `Key`, without the drawing. */
  datatype Key = Key(top: Top, bottom: Bottom, name: string, phonemes: multiset<string>, position: Pos)

  /** `Keyboard::default`'s layout. */
  const DefaultLayout: seq<seq<char>> := ["qwertyuiop", "asdfghjkl;", "zxcvbnm"]

  /** The top piece of the key at column `x` of row `y`, whose last column is
      `right`. The first row has square outer corners; on the other rows the
      piece opens towards the row above. The last column is checked first, so
      a row of one key gets the last-column piece. */
  function TopBorder(y: nat, x: nat, right: nat): (t: Top)
    ensures t == NE <==> y == 0 && x == right
    ensures t == NW <==> y == 0 && x == 0 && x != right
    ensures t == N <==> y == 0 && x != 0 && x != right
    ensures t == TopE <==> y != 0 && x == right
    ensures t == TopW <==> y != 0 && x == 0 && x != right
    ensures t == TopCT <==> y != 0 && x != 0 && x != right
  {
    if y == 0 && x == right then NE
    else if y == 0 && x == 0 then NW
    else if y == 0 then N
    else if x == right then TopE
    else if x == 0 then TopW
    else TopCT
  }

  /** The bottom piece of the key at column `x` of row `y` of `layout`. It
      closes the corner (`SE`) at the end of the last row and wherever the row
      below is more than `x` keys short, so that nothing hangs under the key. */
  function BottomBorder(layout: seq<seq<char>>, y: nat, x: nat): (b: Bottom)
    requires 0 < |layout| && y < |layout| && x < |layout[y]|
    ensures var bottom := |layout| - 1; var right := |layout[y]| - 1;
      && (b == SE <==> (y == bottom && x == right) || (y != bottom && x > |layout[y + 1]|))
      && (b == SW <==> y == bottom && x == 0 && x != right)
      && (b == S <==> y == bottom && x != 0 && x != right)
      && (b == BottomE <==> y != bottom && x <= |layout[y + 1]| && x == right)
      && (b == BottomW <==> y != bottom && x <= |layout[y + 1]| && x == 0 && x != right)
      && (b == BottomCT <==> y != bottom && x <= |layout[y + 1]| && x != 0 && x != right)
  {
    var bottom := |layout| - 1;
    var right := |layout[y]| - 1;
    if (y == bottom && x == right) || (y != bottom && x > |layout[y + 1]|) then SE
    else if y == bottom && x == 0 then SW
    else if y == bottom then S
    else if x == right then BottomE
    else if x == 0 then BottomW
    else BottomCT
  }

  /** The phonemes collected for key `k`, none if it has no entry. */
  function PhonemesOf(inv: map<char, multiset<string>>, k: char): multiset<string> {
    if k in inv then inv[k] else multiset{}
  }

  /** One phoneme's turn in `reverse_mapping`: it is added to the list of
      each key in `ks`, once per time the key is listed. */
  method AddPhoneme(inv: map<char, multiset<string>>, p: string, ks: seq<char>) returns (r: map<char, multiset<string>>)
    ensures forall k, q :: PhonemesOf(r, k)[q] == PhonemesOf(inv, k)[q] + (if q == p then multiset(ks)[k] else 0)
  {
    r := inv;
    var j := 0;
    while j < |ks|
      invariant 0 <= j <= |ks|
      invariant forall k, q :: PhonemesOf(r, k)[q] == PhonemesOf(inv, k)[q] + (if q == p then multiset(ks[..j])[k] else 0)
    {
      var k := ks[j];
      assert ks[..j + 1] == ks[..j] + [k];
      r := r[k := PhonemesOf(r, k) + multiset{p}];
      j := j + 1;
    }
    assert ks[..j] == ks;
  }

  /** The key→phonemes half of `reverse_mapping`: every phoneme ends up in
      the list of each key bound to it, as many times as the key is listed,
      whatever order the phonemes are visited in. */
  method Invert(m: map<string, seq<char>>) returns (inv: map<char, multiset<string>>)
    ensures forall k, p :: PhonemesOf(inv, k)[p] == (if p in m then multiset(m[p])[k] else 0)
  {
    inv := map[];
    var todo := m.Keys;
    assert forall k :: PhonemesOf(inv, k) == multiset{};
    while todo != {}
      invariant todo <= m.Keys
      invariant forall k, p :: PhonemesOf(inv, k)[p] == (if p in m && p !in todo then multiset(m[p])[k] else 0)
      decreases |todo|
    {
      var p :| p in todo;
      inv := AddPhoneme(inv, p, m[p]);
      todo := todo - {p};
    }
  }

  /** The key at `pos` occurs in the layout. */
  predicate At(layout: seq<seq<char>>, pos: Pos) {
    pos.row < |layout| && pos.col < |layout[pos.row]|
  }

  predicate OnLayout(layout: seq<seq<char>>, k: char) {
    exists y, x :: 0 <= y < |layout| && 0 <= x < |layout[y]| && layout[y][x] == k
  }

  /** Cell (y, x) comes after `pos` in reading order. */
  predicate After(y: nat, x: nat, pos: Pos) {
    y > pos.row || (y == pos.row && x > pos.col)
  }

  /** Cell (y, x) comes before cell (row, col) in reading order. */
  predicate Before(y: nat, x: nat, row: nat, col: nat) {
    y < row || (y == row && x < col)
  }

  /** `pos` is the last place `k` occurs among the cells before (row, col). */
  predicate LastBefore(layout: seq<seq<char>>, k: char, pos: Pos, row: nat, col: nat) {
    && At(layout, pos) && Before(pos.row, pos.col, row, col) && layout[pos.row][pos.col] == k
    && forall y, x :: 0 <= y < |layout| && 0 <= x < |layout[y]| && Before(y, x, row, col) && After(y, x, pos) ==> layout[y][x] != k
  }

  /** The key `reverse_mapping` builds for the cell at `pos`. */
  predicate Describes(layout: seq<seq<char>>, inv: map<char, multiset<string>>, key: Key, pos: Pos)
    requires |layout| > 0 && At(layout, pos)
  {
    var k := layout[pos.row][pos.col];
    && key.position == pos
    && key.name == [k]
    && key.top == TopBorder(pos.row, pos.col, |layout[pos.row]| - 1)
    && key.bottom == BottomBorder(layout, pos.row, pos.col)
    && key.phonemes == PhonemesOf(inv, k)
  }

  /** The state of the placing loops once every cell before (row, col) is done. */
  predicate Placed(layout: seq<seq<char>>, inv: map<char, multiset<string>>, keys: map<char, Key>, row: nat, col: nat)
    requires |layout| > 0
  {
    && (forall k :: k in keys <==>
          exists r, c :: 0 <= r < |layout| && 0 <= c < |layout[r]| && Before(r, c, row, col) && layout[r][c] == k)
    && (forall k :: k in keys ==>
          LastBefore(layout, k, keys[k].position, row, col) && Describes(layout, inv, keys[k], keys[k].position))
  }

  function KeyAt(layout: seq<seq<char>>, inv: map<char, multiset<string>>, y: nat, x: nat): (key: Key)
    requires 0 < |layout| && y < |layout| && x < |layout[y]|
    ensures Describes(layout, inv, key, Pos(x, y))
  {
    var k := layout[y][x];
    Key(TopBorder(y, x, |layout[y]| - 1), BottomBorder(layout, y, x), [k], PhonemesOf(inv, k), Pos(x, y))
  }

  /** Placing the key of cell (y, x) keeps the loop state, one cell further. */
  lemma PlaceStep(layout: seq<seq<char>>, inv: map<char, multiset<string>>, keys: map<char, Key>, y: nat, x: nat)
    requires 0 < |layout| && y < |layout| && x < |layout[y]|
    requires Placed(layout, inv, keys, y, x)
    ensures Placed(layout, inv, keys[layout[y][x] := KeyAt(layout, inv, y, x)], y, x + 1)
  {
    var k := layout[y][x];
    var keys' := keys[k := KeyAt(layout, inv, y, x)];
    forall j | j in keys'
      ensures LastBefore(layout, j, keys'[j].position, y, x + 1)
    {
      if j != k {
        assert LastBefore(layout, j, keys[j].position, y, x);
      }
    }
  }

  /** The end of a row is the start of the next one. */
  lemma RowDone(layout: seq<seq<char>>, inv: map<char, multiset<string>>, keys: map<char, Key>, y: nat)
    requires 0 < |layout| && y < |layout|
    requires Placed(layout, inv, keys, y, |layout[y]|)
    ensures Placed(layout, inv, keys, y + 1, 0)
  {
    forall k | k in keys
      ensures LastBefore(layout, k, keys[k].position, y + 1, 0)
    {
      assert LastBefore(layout, k, keys[k].position, y, |layout[y]|);
    }
  }

  /** Once every cell is placed, the keys are those of the layout. */
  lemma AllPlaced(layout: seq<seq<char>>, inv: map<char, multiset<string>>, keys: map<char, Key>)
    requires 0 < |layout| && Placed(layout, inv, keys, |layout|, 0)
    ensures forall k :: k in keys <==> OnLayout(layout, k)
    ensures forall k :: k in keys ==>
      && LastBefore(layout, k, keys[k].position, |layout|, 0)
      && keys[k].name == [k]
      && keys[k].top == TopBorder(keys[k].position.row, keys[k].position.col, |layout[keys[k].position.row]| - 1)
      && keys[k].bottom == BottomBorder(layout, keys[k].position.row, keys[k].position.col)
      && keys[k].phonemes == PhonemesOf(inv, k)
  {
    forall k | k in keys
      ensures keys[k].phonemes == PhonemesOf(inv, k)
    {
      assert LastBefore(layout, k, keys[k].position, |layout|, 0);
    }
    forall k | OnLayout(layout, k)
      ensures k in keys
    {
      var y, x :| 0 <= y < |layout| && 0 <= x < |layout[y]| && layout[y][x] == k;
      assert Before(y, x, |layout|, 0);
    }
  }

  /** `Keyboard::reverse_mapping`: one key for every character of the layout,
      placed at the last cell it occurs in (a later cell overwrites an
      earlier one), named by its character, with the border pieces of that
      cell and the phonemes bound to it. */
  method ReverseMapping(m: map<string, seq<char>>, layout: seq<seq<char>>) returns (keys: map<char, Key>)
    requires |layout| == 3
    ensures forall k :: k in keys <==> OnLayout(layout, k)
    ensures forall k :: k in keys ==>
      && LastBefore(layout, k, keys[k].position, |layout|, 0)
      && keys[k].name == [k]
      && keys[k].top == TopBorder(keys[k].position.row, keys[k].position.col, |layout[keys[k].position.row]| - 1)
      && keys[k].bottom == BottomBorder(layout, keys[k].position.row, keys[k].position.col)
    ensures forall k, p :: k in keys ==> keys[k].phonemes[p] == (if p in m then multiset(m[p])[k] else 0)
  {
    var inv := Invert(m);
    keys := map[];
    var y := 0;
    while y < |layout|
      invariant y <= |layout|
      invariant Placed(layout, inv, keys, y, 0)
    {
      keys := PlaceRow(layout, inv, keys, y);
      y := y + 1;
    }
    AllPlaced(layout, inv, keys);
  }

  /** The inner loop of `reverse_mapping`: the keys of row `y`, left to right. */
  method PlaceRow(layout: seq<seq<char>>, inv: map<char, multiset<string>>, keys: map<char, Key>, y: nat)
    returns (r: map<char, Key>)
    requires 0 < |layout| && y < |layout|
    requires Placed(layout, inv, keys, y, 0)
    ensures Placed(layout, inv, r, y + 1, 0)
  {
    r := keys;
    var x := 0;
    while x < |layout[y]|
      invariant x <= |layout[y]|
      invariant Placed(layout, inv, r, y, x)
    {
      PlaceStep(layout, inv, r, y, x);
      r := r[layout[y][x] := KeyAt(layout, inv, y, x)];
      x := x + 1;
    }
    RowDone(layout, inv, r, y);
  }

  /** The default layout has 27 keys, no two alike, so every key sits at the
      one cell that holds its character. */
  lemma DefaultLayoutDistinct()
    ensures forall y1, x1, y2, x2 ::
      (0 <= y1 < 3 && 0 <= x1 < |DefaultLayout[y1]| && 0 <= y2 < 3 && 0 <= x2 < |DefaultLayout[y2]|
       && DefaultLayout[y1][x1] == DefaultLayout[y2][x2]) ==> y1 == y2 && x1 == x2
  {
  }

  /** `Keyboard::default`: the keyboard of the three QWERTY letter rows, where
      every key sits at the one cell holding its character. */
  method KeyboardDefault(m: map<string, seq<char>>) returns (keys: map<char, Key>)
    ensures forall k :: k in keys <==> OnLayout(DefaultLayout, k)
    ensures forall y, x :: 0 <= y < 3 && 0 <= x < |DefaultLayout[y]| ==>
      DefaultLayout[y][x] in keys && keys[DefaultLayout[y][x]].position == Pos(x, y)
    ensures forall k, p :: k in keys ==> keys[k].phonemes[p] == (if p in m then multiset(m[p])[k] else 0)
  {
    keys := ReverseMapping(m, DefaultLayout);
    DefaultLayoutDistinct();
    forall y, x | 0 <= y < 3 && 0 <= x < |DefaultLayout[y]|
      ensures DefaultLayout[y][x] in keys && keys[DefaultLayout[y][x]].position == Pos(x, y)
    {
      var k := DefaultLayout[y][x];
      assert OnLayout(DefaultLayout, k);
      assert LastBefore(DefaultLayout, k, keys[k].position, 3, 0);
    }
  }
}

=== FILE: keymaps.dfy ===
/** The key-map file parser of `KeyMap::open` (src/input.rs), over the file's
    text. Each line is `name : keys`; the names `leader`, `leader_er`,
    `split_er` and `name` are settings, every other name is a phoneme bound to
    the keys that type it. */
module KeyMaps {
  import opened Wrappers
  import opened Text

  /** `KeyMap`: the leader key for zero-initial syllables (`*` means "the
      final's first letter"), the display name, phoneme to keys, and whether
      the final "er" is typed as "e" then "r". */
  datatype KeyMap = KeyMap(leader: char, name: string, keys: map<string, seq<char>>, splitEr: bool)

  /** The values `KeyMap::open` starts from. */
  const Defaults := KeyMap('o', [], map[], true)

  /** One line of the file, understood. */
  datatype Line =
    | Skipped                                  // blank, or a `#` comment
    | Leader(key: char)                        // `leader : x`
    | LeaderEr(key: char)                      // `leader_er : x`, binds "er" to x
    | SplitEr(on: bool)                        // `split_er : 1` (anything else is off)
    | Name(text: string)                       // `name : ...`
    | Binding(phoneme: string, keys: seq<char>)

  /** Why a line cannot be read (each one is an index panic in the source). */
  datatype Fault =
    | NoColon      // `split[1]` of a line without ':'
    | NoValue      // `key[0]` of a setting whose value is empty

  datatype ParseError = ParseError(line: nat, fault: Fault)

  /** One line as the loop body reads it. The value is the text between the
      first and the second ':', trimmed; anything after a second ':' is ignored. */
  function ReadLine(line: string): (r: Result<Line, Fault>)
    ensures r == Ok(Skipped) <==> AllWhitespace(line) || Trim(line)[0] == '#'
    ensures r == Err(NoColon) <==> !(AllWhitespace(line) || Trim(line)[0] == '#') && ':' !in line
  {
    var t := Trim(line);
    if (|t| > 0 && t[0] == '#') || |t| == 0 then Ok(Skipped)
    else
      var parts := SplitOn(line, ':');
      if |parts| < 2 then
        assert line == JoinWith(parts, ':') == parts[0];
        Err(NoColon)
      else
        assert ':' in line by { assert line == parts[0] + [':'] + JoinWith(parts[1..], ':'); }
        ReadPair(Trim(parts[0]), Trim(parts[1]))
  }

  /** A line from its trimmed name and value: only the one-character
      settings can fail, and only on an empty value. */
  function ReadPair(phoneme: string, value: string): (r: Result<Line, Fault>)
    ensures r.Err? <==> phoneme in ["leader", "leader_er", "split_er"] && value == []
    ensures r.Err? ==> r.error == NoValue
    ensures r != Ok(Skipped)
  {
    if phoneme == "leader" then
      if |value| == 0 then Err(NoValue) else Ok(Leader(value[0]))
    else if phoneme == "leader_er" then
      if |value| == 0 then Err(NoValue) else Ok(LeaderEr(value[0]))
    else if phoneme == "split_er" then
      if |value| == 0 then Err(NoValue) else Ok(SplitEr(value[0] == '1'))
    else if phoneme == "name" then Ok(Name(value))
    else Ok(Binding(phoneme, value))
  }

  /** The first two ':'-pieces of `name : value …`, where the value runs to
      the end of the line or to the next ':'. */
  lemma FirstTwoPieces(name: string, value: string, tail: string)
    requires ':' !in name && ':' !in value && (tail == [] || tail[0] == ':')
    ensures var parts := SplitOn(name + ":" + value + tail, ':');
      |parts| >= 2 && parts[0] == name && parts[1] == value
  {
    var rest := ":" + value + tail;
    assert name + ":" + value + tail == name + rest;
    SplitNoSep(name, rest, ':');
    assert rest[1..] == value + tail;
    SplitNoSep(value, tail, ':');
    assert value + SplitOn(tail, ':')[0] == value;
  }

  /** A line whose first non-blank character is `c` trims to a string opening with `c`. */
  lemma TrimOpensWith(line: string, k: nat)
    requires k < |line| && AllWhitespace(line[..k]) && !IsWhitespace(line[k])
    ensures Trim(line) != [] && Trim(line)[0] == line[k]
  {
    assert line == line[..k] + line[k..];
    StartPadded(line[..k], line[k..]);
    assert !AllWhitespace(line);
  }

  /** A line that is neither blank nor a comment and has a ':' is read from
      the trimmed text before its first ':' and between its first two. */
  lemma ReadFields(line: string)
    ensures var parts := SplitOn(line, ':');
      Trim(line) != [] && Trim(line)[0] != '#' && |parts| >= 2 ==>
        ReadLine(line) == ReadPair(Trim(parts[0]), Trim(parts[1]))
  {
  }

  /** Blanks around a name and a value do not reach the pieces' trimmed text. */
  lemma PaddedPieces(a: string, p: string, b: string, c: string, v: string, d: string, tail: string)
    requires AllWhitespace(a) && AllWhitespace(b) && AllWhitespace(c) && AllWhitespace(d)
    requires Trimmed(p) && Trimmed(v) && ':' !in p && ':' !in v
    requires tail == [] || tail[0] == ':'
    ensures var parts := SplitOn(a + p + b + ":" + c + v + d + tail, ':');
      |parts| >= 2 && Trim(parts[0]) == p && Trim(parts[1]) == v
  {
    assert a + p + b + ":" + c + v + d + tail == (a + p + b) + ":" + (c + v + d) + tail;
    assert ':' !in a && ':' !in b && ':' !in c && ':' !in d by {
      assert !IsWhitespace(':');
    }
    FirstTwoPieces(a + p + b, c + v + d, tail);
    TrimPadded(a, p, b);
    TrimPadded(c, v, d);
  }

  /** Such a line is neither blank nor a comment: its first non-blank
      character opens the name, or is the ':' when the name is empty. */
  lemma PaddedNotSkipped(a: string, p: string, b: string, rest: string)
    requires AllWhitespace(a) && AllWhitespace(b) && Trimmed(p)
    requires p == [] || p[0] != '#'
    ensures var line := a + p + b + ":" + rest;
      Trim(line) != [] && Trim(line)[0] != '#'
  {
    var line := a + p + b + ":" + rest;
    if p != [] {
      assert line[..|a|] == a && line[|a|] == p[0];
      TrimOpensWith(line, |a|);
    } else {
      assert line[..|a| + |b|] == a + b && line[|a| + |b|] == ':';
      WhitespaceConcat(a, b);
      TrimOpensWith(line, |a| + |b|);
    }
  }

  /** What a line `p : v` says, whatever blanks pad the name `p` and the value
      `v`, and whatever follows a second ':': `leader` sets the leader to the
      value's first character, `leader_er` binds "er" to it, `split_er` is on
      exactly when the value opens with '1' (each of the three fails on an
      empty value), `name` names the map, and any other name is a phoneme
      bound to the value's characters. */
  lemma ReadLineMeaning(a: string, p: string, b: string, c: string, v: string, d: string, tail: string)
    requires AllWhitespace(a) && AllWhitespace(b) && AllWhitespace(c) && AllWhitespace(d)
    requires Trimmed(p) && Trimmed(v) && ':' !in p && ':' !in v
    requires p == [] || p[0] != '#'
    requires tail == [] || tail[0] == ':'
    ensures var r := ReadLine(a + p + b + ":" + c + v + d + tail);
      && (p == "leader" ==> r == (if v == [] then Err(NoValue) else Ok(Leader(v[0]))))
      && (p == "leader_er" ==> r == (if v == [] then Err(NoValue) else Ok(LeaderEr(v[0]))))
      && (p == "split_er" ==> r == (if v == [] then Err(NoValue) else Ok(SplitEr(v[0] == '1'))))
      && (p == "name" ==> r == Ok(Name(v)))
      && (p != "leader" && p != "leader_er" && p != "split_er" && p != "name" ==> r == Ok(Binding(p, v)))
  {
    var line := a + p + b + ":" + c + v + d + tail;
    assert line == a + p + b + ":" + (c + v + d + tail);
    PaddedNotSkipped(a, p, b, c + v + d + tail);
    PaddedPieces(a, p, b, c, v, d, tail);
    ReadFields(line);
  }

  /** The effect of one line on the key map being built. */
  function Apply(km: KeyMap, l: Line): KeyMap {
    match l
    case Skipped => km
    case Leader(c) => km.(leader := c)
    case LeaderEr(c) => km.(keys := km.keys["er" := [c]])
    case SplitEr(on) => km.(splitEr := on)
    case Name(t) => km.(name := t)
    case Binding(p, ks) => km.(keys := km.keys[p := ks])
  }

  // What each line says about one setting, used to describe the parse result
  // independently of the loop: the last line that says something wins.

  function LeaderOf(l: Line): Option<char> {
    if l.Leader? then Some(l.key) else None
  }

  function SplitErOf(l: Line): Option<bool> {
    if l.SplitEr? then Some(l.on) else None
  }

  function NameOf(l: Line): Option<string> {
    if l.Name? then Some(l.text) else None
  }

  /** The keys a line binds to phoneme `p`, if it binds any. */
  function KeysOf(l: Line, p: string): Option<seq<char>> {
    match l
    case Binding(q, ks) => if q == p then Some(ks) else None
    case LeaderEr(c) => if p == "er" then Some([c]) else None
    case _ => None
  }

  function KeysPick(p: string): Line -> Option<seq<char>> {
    (l: Line) => KeysOf(l, p)
  }

  /** The first of two options that is present. */
  function OrElse<T>(first: Option<T>, second: Option<T>): Option<T> {
    if first.Some? then first else second
  }

  /** What the last of the read lines that says anything under `pick` says. */
  function Latest<T>(read: seq<Result<Line, Fault>>, pick: Line -> Option<T>): Option<T>
    decreases |read|
  {
    if |read| == 0 then None
    else
      var later := Latest(read[1..], pick);
      if later.Some? then later
      else match read[0]
        case Ok(l) => pick(l)
        case Err(_) => None
  }

  function LookupKeys(keys: map<string, seq<char>>, p: string): Option<seq<char>> {
    if p in keys then Some(keys[p]) else None
  }

  /** The first unreadable line from index `at` on, if any. */
  function FirstFault(read: seq<Result<Line, Fault>>, at: nat): Option<ParseError>
    decreases |read|
  {
    if |read| == 0 then None
    else match read[0]
      case Err(f) => Some(ParseError(at, f))
      case Ok(_) => FirstFault(read[1..], at + 1)
  }

  /** The parse loop of `KeyMap::open` over lines already read, from state
      `acc`, the first line being number `at`. It stops at the first line it
      cannot read; otherwise every setting, and every phoneme's keys, come
      from the last line that gives them, and from `acc` when no line does. */
  function ParseLines(read: seq<Result<Line, Fault>>, at: nat, acc: KeyMap): (r: Result<KeyMap, ParseError>)
    ensures r.Err? <==> FirstFault(read, at).Some?
    ensures r.Err? ==> r.error == FirstFault(read, at).value
    ensures r.Ok? ==> r.value.leader == Latest(read, LeaderOf).GetOr(acc.leader)
    ensures r.Ok? ==> r.value.splitEr == Latest(read, SplitErOf).GetOr(acc.splitEr)
    ensures r.Ok? ==> r.value.name == Latest(read, NameOf).GetOr(acc.name)
    ensures r.Ok? ==> forall p ::
      LookupKeys(r.value.keys, p) == OrElse(Latest(read, KeysPick(p)), LookupKeys(acc.keys, p))
    decreases |read|
  {
    if |read| == 0 then Ok(acc)
    else match read[0]
      case Err(f) => Err(ParseError(at, f))
      case Ok(l) =>
        var r := ParseLines(read[1..], at + 1, Apply(acc, l));
        ApplyKeys(acc, l);
        r
  }

  /** How one line changes the keys bound to each phoneme. */
  lemma ApplyKeys(acc: KeyMap, l: Line)
    ensures forall p ::
      LookupKeys(Apply(acc, l).keys, p) == OrElse(KeysPick(p)(l), LookupKeys(acc.keys, p))
  {
  }

  /** Every line of the file, read. */
  function ReadAll(lines: seq<string>): (read: seq<Result<Line, Fault>>)
    ensures |read| == |lines|
    ensures forall i :: 0 <= i < |lines| ==> read[i] == ReadLine(lines[i])
  {
    seq(|lines|, i requires 0 <= i < |lines| => ReadLine(lines[i]))
  }

  /** `KeyMap::open` without the file read: the text is cut at '\n' and parsed
      line by line from the defaults (leader 'o', "er" split, empty name, no
      phonemes). */
  function Parse(text: string): (r: Result<KeyMap, ParseError>)
    ensures var read := ReadAll(SplitOn(text, '\n'));
      && (r.Err? <==> FirstFault(read, 0).Some?)
      && (r.Err? ==> r.error == FirstFault(read, 0).value)
      && (r.Ok? ==> r.value.leader == Latest(read, LeaderOf).GetOr('o'))
      && (r.Ok? ==> r.value.splitEr == Latest(read, SplitErOf).GetOr(true))
      && (r.Ok? ==> r.value.name == Latest(read, NameOf).GetOr([]))
      && (r.Ok? ==> forall p :: LookupKeys(r.value.keys, p) == Latest(read, KeysPick(p)))
  {
    ParseLines(ReadAll(SplitOn(text, '\n')), 0, Defaults)
  }
}

=== FILE: linewrap.dfy ===
/** `Passage::wrap` (src/pin.rs): greedy slicing of a passage into display lines.

    The wrapper keeps a running width. When a unit would push it past the
    budget, the line being built is closed WITH that unit in it, the running
    width restarts at zero and the unit's width is then added to it, so the
    unit that closed a line is charged to the line after it (its "carry").
    The last line is whatever is left, possibly nothing. */
module LineWrap {
  import opened Wrappers
  import opened Text
  import opened Syllables

  /** What the wrapper needs besides the units: the terminal width of a glyph
      (`width_cjk`, absent for control characters), whether the pinyin line is
      shown above the glyphs, and the width budget. */
  datatype Measure = Measure(glyphWidth: char -> Option<nat>, withPinyin: bool, maxWidth: nat)

  /** The glyph width, 1 when the width function has none. */
  function GlyphWidth(u: Unit, m: Measure): nat {
    m.glyphWidth(u.glyph).GetOr(1)
  }

  /** Columns a unit takes: its glyph, widened to its plain spelling (in bytes)
      plus one separating space when pinyin is shown and the unit has a reading. */
  function UnitWidth(u: Unit, m: Measure): (w: nat)
    ensures w >= GlyphWidth(u, m)
    ensures m.withPinyin && u.pin.Some? ==> w >= Utf8Len(u.pin.value.plain) + 1
    ensures w == GlyphWidth(u, m) || (m.withPinyin && u.pin.Some? && w == Utf8Len(u.pin.value.plain) + 1)
  {
    var g := GlyphWidth(u, m);
    if m.withPinyin && u.pin.Some? then
      var p := Utf8Len(u.pin.value.plain) + 1;
      if g >= p then g else p
    else g
  }

  function LineWidth(line: seq<Unit>, m: Measure): nat
    decreases |line|
  {
    if |line| == 0 then 0 else LineWidth(line[..|line| - 1], m) + UnitWidth(line[|line| - 1], m)
  }

  /** The width of the last unit of a line, which the next line starts with. */
  function LastWidth(line: seq<Unit>, m: Measure): nat {
    if |line| == 0 then 0 else UnitWidth(line[|line| - 1], m)
  }

  function Flatten(lines: seq<seq<Unit>>): seq<Unit>
    decreases |lines|
  {
    if |lines| == 0 then [] else lines[0] + Flatten(lines[1..])
  }

  /** A line the wrapper closed, given the width carried into it: every unit
      but the last fit, and the last one overflowed. */
  predicate Breaks(line: seq<Unit>, carry: nat, m: Measure) {
    && |line| > 0
    && (|line| == 1 || carry + LineWidth(line[..|line| - 1], m) <= m.maxWidth)
    && carry + LineWidth(line, m) > m.maxWidth
  }

  /** The last line: nothing in it overflowed. */
  predicate Fits(line: seq<Unit>, carry: nat, m: Measure) {
    line == [] || carry + LineWidth(line, m) <= m.maxWidth
  }

  /** The lines a greedy wrap produces, starting from `carry`: closed lines
      followed by one line that fits. */
  predicate Wrapped(lines: seq<seq<Unit>>, carry: nat, m: Measure)
    decreases |lines|
  {
    && |lines| > 0
    && if |lines| == 1 then Fits(lines[0], carry, m)
       else Breaks(lines[0], carry, m) && Wrapped(lines[1..], LastWidth(lines[0], m), m)
  }

  /** Only closed lines (the wrapper's state before it reaches the end). */
  predicate Closed(lines: seq<seq<Unit>>, carry: nat, m: Measure)
    decreases |lines|
  {
    |lines| == 0 || (Breaks(lines[0], carry, m) && Closed(lines[1..], LastWidth(lines[0], m), m))
  }

  /** The width carried out of a run of closed lines. */
  function CarryOut(lines: seq<seq<Unit>>, carry: nat, m: Measure): nat
    decreases |lines|
  {
    if |lines| == 0 then carry else CarryOut(lines[1..], LastWidth(lines[0], m), m)
  }

  /** `Passage::wrap(max_width, consider_pinyin)`. */
  method Wrap(units: seq<Unit>, m: Measure) returns (lines: seq<seq<Unit>>)
    ensures |lines| > 0
    ensures Flatten(lines) == units
    ensures Wrapped(lines, 0, m)
  {
    lines := [];
    var width := 0;
    var slow := 0;
    var fast := 0;
    while fast < |units|
      invariant 0 <= slow <= fast <= |units|
      invariant Flatten(lines) == units[..slow]
      invariant Closed(lines, 0, m)
      invariant width == CarryOut(lines, 0, m) + LineWidth(units[slow..fast], m)
      invariant slow == fast || width <= m.maxWidth
    {
      var w := UnitWidth(units[fast], m);
      assert units[slow..fast + 1][..fast - slow] == units[slow..fast];
      if width + w > m.maxWidth {
        var line := units[slow..fast + 1];
        FlattenAppend(lines, line);
        assert units[..slow] + line == units[..fast + 1];
        CloseLine(lines, line, 0, m);
        lines := lines + [line];
        width := 0;
        slow := fast + 1;
      }
      fast := fast + 1;
      width := width + w;
    }
    var line := units[slow..fast];
    FlattenAppend(lines, line);
    assert units[..slow] + line == units;
    LastLine(lines, line, 0, m);
    lines := lines + [line];
  }

  lemma {:induction false} FlattenAppend(lines: seq<seq<Unit>>, line: seq<Unit>)
    ensures Flatten(lines + [line]) == Flatten(lines) + line
    decreases |lines|
  {
    if |lines| == 0 {
      assert Flatten([line]) == line + Flatten([]);
    } else {
      assert (lines + [line])[1..] == lines[1..] + [line];
      FlattenAppend(lines[1..], line);
    }
  }

  /** Closing one more line keeps the closed lines well formed. */
  lemma {:induction false} CloseLine(lines: seq<seq<Unit>>, line: seq<Unit>, carry: nat, m: Measure)
    requires Closed(lines, carry, m)
    requires Breaks(line, CarryOut(lines, carry, m), m)
    ensures Closed(lines + [line], carry, m)
    ensures CarryOut(lines + [line], carry, m) == LastWidth(line, m)
    decreases |lines|
  {
    if |lines| == 0 {
      assert [line][1..] == [];
    } else {
      assert (lines + [line])[1..] == lines[1..] + [line];
      CloseLine(lines[1..], line, LastWidth(lines[0], m), m);
    }
  }

  /** Closed lines and a last line that fits make a complete wrap. */
  lemma {:induction false} LastLine(lines: seq<seq<Unit>>, line: seq<Unit>, carry: nat, m: Measure)
    requires Closed(lines, carry, m)
    requires Fits(line, CarryOut(lines, carry, m), m)
    ensures Wrapped(lines + [line], carry, m)
    decreases |lines|
  {
    if |lines| > 0 {
      assert (lines + [line])[1..] == lines[1..] + [line];
      LastLine(lines[1..], line, LastWidth(lines[0], m), m);
    }
  }

  lemma {:induction false} LineWidthPrefix(line: seq<Unit>, k: nat, m: Measure)
    requires k <= |line|
    ensures LineWidth(line[..k], m) <= LineWidth(line, m)
    decreases |line|
  {
    if k < |line| {
      assert line[..|line| - 1][..k] == line[..k];
      LineWidthPrefix(line[..|line| - 1], k, m);
    } else {
      assert line[..k] == line;
    }
  }

  /** The wrap is determined by its description: two line lists that both
      satisfy `Wrapped` and hold the same units are the same lists, so the
      contract of `Wrap` says everything about its result. */
  lemma {:induction false} WrapUnique(a: seq<seq<Unit>>, b: seq<seq<Unit>>, carry: nat, m: Measure)
    requires Wrapped(a, carry, m) && Wrapped(b, carry, m)
    requires Flatten(a) == Flatten(b)
    ensures a == b
    decreases |a|
  {
    var f := Flatten(a);
    assert f == a[0] + Flatten(a[1..]);
    assert f == b[0] + Flatten(b[1..]);
    assert a[0] == f[..|a[0]|];
    assert b[0] == f[..|b[0]|];
    if |a| == 1 && |b| == 1 {
      assert a[0] == f by { assert Flatten(a[1..]) == []; }
      assert b[0] == f by { assert Flatten(b[1..]) == []; }
    } else if |a| == 1 {
      OnlyLineIsWhole(a, b, carry, m);
    } else if |b| == 1 {
      OnlyLineIsWhole(b, a, carry, m);
    } else {
      if |a[0]| <= |b[0]| {
        ShorterBreakImpossible(a[0], b[0], carry, m);
      } else {
        ShorterBreakImpossible(b[0], a[0], carry, m);
      }
      assert a[0] == b[0];
      assert Flatten(a[1..]) == f[|a[0]|..] == Flatten(b[1..]);
      WrapUnique(a[1..], b[1..], LastWidth(a[0], m), m);
      assert a == [a[0]] + a[1..];
      assert b == [b[0]] + b[1..];
    }
  }

  /** A wrap into one line cannot also be a wrap into several lines. */
  lemma OnlyLineIsWhole(a: seq<seq<Unit>>, b: seq<seq<Unit>>, carry: nat, m: Measure)
    requires Wrapped(a, carry, m) && Wrapped(b, carry, m)
    requires Flatten(a) == Flatten(b)
    requires |a| == 1
    ensures |b| == 1
  {
    if |b| > 1 {
      var f := Flatten(a);
      assert f == a[0] by { assert Flatten(a[1..]) == []; }
      assert f == b[0] + Flatten(b[1..]);
      assert b[0] == f[..|b[0]|];
      LineWidthPrefix(f, |b[0]|, m);
      assert false;
    }
  }

  /** Of two closed lines, one a prefix of the other, neither is shorter. */
  lemma ShorterBreakImpossible(x: seq<Unit>, y: seq<Unit>, carry: nat, m: Measure)
    requires Breaks(x, carry, m) && Breaks(y, carry, m)
    requires |x| <= |y| && x == y[..|x|]
    ensures |x| == |y|
  {
    if |x| < |y| {
      var body := y[..|y| - 1];
      assert body[..|x|] == x;
      LineWidthPrefix(body, |x|, m);
      assert false;
    }
  }

  /** The guarantee a reader of the wrap can rely on: whatever comes before
      the last unit of a line fits in the budget. Only the last unit of a
      line may stick out, and a unit wider than the budget ends its line. */
  lemma {:induction false} WrappedLinesFit(lines: seq<seq<Unit>>, carry: nat, m: Measure)
    requires Wrapped(lines, carry, m)
    ensures forall k :: 0 <= k < |lines| && |lines[k]| > 0 ==>
      LineWidth(lines[k][..|lines[k]| - 1], m) <= m.maxWidth
    decreases |lines|
  {
    if |lines| == 1 {
      var l := lines[0];
      if |l| > 0 {
        LineWidthPrefix(l, |l| - 1, m);
      }
    } else {
      WrappedLinesFit(lines[1..], LastWidth(lines[0], m), m);
      forall k | 0 <= k < |lines| && |lines[k]| > 0
        ensures LineWidth(lines[k][..|lines[k]| - 1], m) <= m.maxWidth
      {
        if k > 0 {
          assert lines[k] == lines[1..][k - 1];
        } else if |lines[0]| == 1 {
          assert lines[0][..0] == [];
        }
      }
    }
  }
}

=== FILE: scenarios.dfy ===
/** Whole sessions on small passages, run through `HandleKey` key by key. */
module Scenarios {
  import opened Wrappers
  import opened Syllables
  import opened KeyMaps
  import opened Sessions

  /** A unit whose reading has toned and plain spellings alike, with the
      given split. */
  function Syllable(glyph: char, plain: string, initial: string, final: string): Unit {
    CharacterNew(glyph, Some(Pin(plain, plain, Halves(initial, final))))
  }

  /** The leading space of every passage. */
  const Space: Unit := CharacterNew(' ', None)

  const Hao: Unit := Syllable('\U{597D}', "hao", "h", "ao")
  const Ai: Unit := Syllable('\U{7231}', "ai", [], "ai")
  const Er: Unit := Syllable('\U{4E8C}', "er", [], "er")
  const Ni: Unit := Syllable('\U{4F60}', "ni", "n", "i")

  /** The syllables above are the ones `Pin::new` makes from these readings. */
  lemma HaoReading()
    ensures Hao.pin == Some(PinNew(Reading("hao", "hao")))
  {
    assert VowelFree("h");
    SplitUnique("hao", Halves("h", "ao"));
  }

  lemma NiReading()
    ensures Ni.pin == Some(PinNew(Reading("ni", "ni")))
  {
    assert VowelFree("n");
    SplitUnique("ni", Halves("n", "i"));
  }

  /** A reading that opens with a vowel has an empty initial. */
  lemma ZeroInitialReadings()
    ensures Ai.pin == Some(PinNew(Reading("ai", "ai")))
    ensures Er.pin == Some(PinNew(Reading("er", "er")))
  {
  }

  function Press(c: char): KeyEvent {
    KeyEvent(NoModifiers, CharKey(c))
  }

  const HaoMap: KeyMap := KeyMap('o', "hao", map["h" := "h", "ao" := "c"], true)

  /** "好" (hao) with h on `h` and ao on `c`: `h` half-types it, `c` passes
      it, and since it is the only syllable the session ends. */
  lemma OneSyllable(t1: nat, t2: nat)
    ensures var s0 := SessionNew([Space, Hao], HaoMap, 0);
      var o1 := HandleKey(s0, HaoMap, Press('h'), t1);
      && o1.Continue?
      && |o1.session.units| == 2
      && o1.session.units[1].status == TypingHalf && !o1.session.typingConsonant
      && o1.session.counter.mistakes == 0 && o1.session.passed == 0
      && var o2 := HandleKey(o1.session, HaoMap, Press('c'), t2);
         && o2.Continue? && o2.feedback == Summary
         && |o2.session.units| == 2
         && o2.session.end && o2.session.units[1].status == Passed
         && o2.session.counter.typed == 1 && o2.session.counter.mistakes == 0
  {
    // `h` is judged against the initial of the unit after the leading space
    assert Verdict(SessionNew([Space, Hao], HaoMap, 0), HaoMap, 'h') == Ok(true);
  }

  const AiMap: KeyMap := KeyMap('o', "ai", map["ai" := "d"], true)

  /** "爱" (ai) has no initial: the leader `o` opens it, whatever its final. */
  lemma ZeroInitial(t: nat)
    ensures var s0 := SessionNew([Space, Ai], AiMap, 0);
      var o := HandleKey(s0, AiMap, Press('o'), t);
      && o.Continue?
      && |o.session.units| == 2
      && o.session.units[1].status == TypingHalf && !o.session.typingConsonant
      && o.session.counter.mistakes == 0
  {
    // the leader itself is the expected key of a zero initial
    assert Verdict(SessionNew([Space, Ai], AiMap, 0), AiMap, 'o') == Ok(true);
  }

  const ErMap: KeyMap := KeyMap('v', "er", map["e" := "e", "r" := "r", "er" := "j"], true)

  /** "二" (er) with the "er" rule on and leader `v`: the initial half wants
      the keys of "e", so `r` is a mistake that leaves the phase alone, and
      `e` then half-types the syllable. */
  lemma SplitEr(t1: nat, t2: nat)
    ensures var s0 := SessionNew([Space, Er], ErMap, 0);
      var o1 := HandleKey(s0, ErMap, Press('r'), t1);
      && o1.Continue?
      && |o1.session.units| == 2
      && o1.session.units[1].status == ErrorConsonant && o1.session.typingConsonant
      && o1.session.counter.mistakes == 1 && o1.session.passed == 0
      && var o2 := HandleKey(o1.session, ErMap, Press('e'), t2);
         && o2.Continue?
         && |o2.session.units| == 2
         && o2.session.units[1].status == TypingHalf && !o2.session.typingConsonant
         && o2.session.counter.mistakes == 1
  {
    // `r` is not among the keys of "e"
    assert Verdict(SessionNew([Space, Er], ErMap, 0), ErMap, 'r') == Ok(false);
  }

  const NiHaoMap: KeyMap := KeyMap('o', "nihao", map["n" := "n", "i" := "i"], true)

  /** The passage "你好", with no trailing mark. */
  const NiHao: seq<Unit> := [Space, Ni, Hao]

  /** `n` half-types "你". */
  lemma NiHaoFirstKey(t: nat)
    ensures var s0 := SessionNew(NiHao, NiHaoMap, 0);
      var o := HandleKey(s0, NiHaoMap, Press('n'), t);
      o.Continue? && o.session == s0.(units := NiHao[1 := Ni.(status := TypingHalf)], typingConsonant := false)
  {
    assert Verdict(SessionNew(NiHao, NiHaoMap, 0), NiHaoMap, 'n') == Ok(true);
  }

  /** "你好" (ni hao): the session ends as soon as "你" is passed, because the
      passage has no trailing mark and the end test is "within two units of
      the end". "好" is never typed and the count stays one short. */
  lemma EndsBeforeLastSyllable(t1: nat, t2: nat)
    ensures var s0 := SessionNew(NiHao, NiHaoMap, 0);
      var o1 := HandleKey(s0, NiHaoMap, Press('n'), t1);
      && o1.Continue?
      && var o2 := HandleKey(o1.session, NiHaoMap, Press('i'), t2);
         && o2.Continue? && o2.feedback == Summary && o2.session.end
         && |o2.session.units| == 3
         && o2.session.units[2].status == Future
         && o2.session.counter.typed == 1 && o2.session.counter.total == 2
  {
    NiHaoFirstKey(t1);
  }

  /** Ctrl-Q quits and Ctrl-R asks for a fresh session, in any state. */
  lemma ControlKeys(s: Session, km: KeyMap, t: nat)
    ensures HandleKey(s, km, KeyEvent(Control, CharKey('q')), t) == Quit
    ensures HandleKey(s, km, KeyEvent(Control, CharKey('r')), t).session.restart
  {
  }
}

=== FILE: screen.dfy ===
/** The integer arithmetic of `Render` (src/render.rs): where the passage box
    sits in the terminal, which wrapped line is the live one and how many rows
    each line takes, and the speed and time figures of the status bar and the
    summary. Terminal sizes are `u16` in the source; the rectangle is defined
    for the sizes at which none of its subtractions underflows. */
module Screen {
  import opened Wrappers
  import opened Counters

  /** `ToneType`: pinyin above every line, above the live line only, or never. */
  datatype Tone = Always | Live | Off

  /** `rendering_typing_line` for a line of `n` units starting at unit
      `start`, the cursor being at unit `passed`. The live line is the one
      holding the last passed unit or the unit being typed, or an empty line
      standing right where the unit being typed would be. */
  predicate IsLiveLine(start: nat, n: nat, passed: nat): (live: bool)
    ensures live <==>
      (start <= passed < start + n) || (start <= passed + 1 < start + n) || (n == 0 && start == passed + 1)
  {
    start <= passed + 1 && start + n > passed
  }

  /** Whether a line is drawn with a pinyin row above its glyphs. */
  predicate ShowsPinyin(live: bool, tone: Tone) {
    tone == Always || (tone == Live && live)
  }

  /** The step of `y` after a line of `render_passage`. */
  function RowStep(live: bool, tone: Tone): (rows: nat)
    ensures rows == (if ShowsPinyin(live, tone) then 2 else 1)
  {
    if live then (if tone == Off then 1 else 2)
    else if tone == Always then 2 else 1
  }

  /** The row, below the line's first row, where a line's glyphs are drawn. */
  function GlyphRow(live: bool, tone: Tone): (dy: nat)
    ensures dy + 1 == RowStep(live, tone)
  {
    match tone
    case Always => 1
    case Live => if live then 1 else 0
    case Off => 0
  }

  /** The cursor bar of the live line is drawn on its glyph row. */
  function MarkerRow(tone: Tone): (dy: nat)
    ensures dy == GlyphRow(true, tone)
  {
    if tone == Off then 0 else 1
  }

  /** Rows taken by lines of lengths `lens`, the first starting at unit `start`. */
  function Rows(lens: seq<nat>, start: nat, passed: nat, tone: Tone): (rows: nat)
    ensures |lens| <= rows <= 2 * |lens|
    ensures tone == Always ==> rows == 2 * |lens|
    ensures tone == Off ==> rows == |lens|
    decreases |lens|
  {
    if |lens| == 0 then 0
    else RowStep(IsLiveLine(start, lens[0], passed), tone) + Rows(lens[1..], start + lens[0], passed, tone)
  }

  /** Number of live lines among lines of lengths `lens`. */
  function LiveLines(lens: seq<nat>, start: nat, passed: nat): nat
    decreases |lens|
  {
    if |lens| == 0 then 0
    else (if IsLiveLine(start, lens[0], passed) then 1 else 0) + LiveLines(lens[1..], start + lens[0], passed)
  }

  /** In `Live` mode every line takes one row and each live line one more. */
  lemma {:induction false} LiveRows(lens: seq<nat>, start: nat, passed: nat)
    ensures Rows(lens, start, passed, Live) == |lens| + LiveLines(lens, start, passed)
    decreases |lens|
  {
    if |lens| > 0 {
      LiveRows(lens[1..], start + lens[0], passed);
    }
  }

  lemma {:induction false} NoneLiveAfter(lens: seq<nat>, start: nat, passed: nat)
    requires start > passed + 1
    ensures LiveLines(lens, start, passed) == 0
    decreases |lens|
  {
    if |lens| > 0 {
      NoneLiveAfter(lens[1..], start + lens[0], passed);
    }
  }

  /** Lines a wrap produces (only the last may be empty) have at most two
      live lines, so the `Live` display is at most two rows taller than `Off`. */
  lemma {:induction false} AtMostTwoLive(lens: seq<nat>, start: nat, passed: nat)
    requires forall i :: 0 <= i < |lens| - 1 ==> lens[i] > 0
    ensures LiveLines(lens, start, passed) <= 2
    ensures Rows(lens, start, passed, Live) <= |lens| + 2
    decreases |lens|
  {
    LiveRows(lens, start, passed);
    if |lens| > 0 {
      var next := start + lens[0];
      var rest := lens[1..];
      if start > passed + 1 {
        NoneLiveAfter(lens, start, passed);
      } else if !IsLiveLine(start, lens[0], passed) {
        AtMostTwoLive(rest, next, passed);
      } else if next > passed + 1 {
        NoneLiveAfter(rest, next, passed);
      } else if |rest| > 0 {
        assert next == passed + 1;
        if |rest| > 1 {
          assert rest[0] > 0;
          NoneLiveAfter(rest[1..], next + rest[0], passed);
        }
      }
    }
  }

  /** `Rect`: the passage box, in terminal cells. */
  datatype Rect = Rect(width: nat, height: nat, left: nat, top: nat)

  const PaddingTop: nat := 2
  const PaddingAside: nat := 10
  const MaxWidth: nat := 120

  /** `calc_passage_rect` for a terminal of `cols` by `rows` cells. */
  function PassageRect(cols: nat, rows: nat): (r: Rect)
    requires 8 <= cols < 0x1_0000 && 4 <= rows < 0x1_0000
    ensures r.top == PaddingTop && r.left >= 4
    ensures r.width <= MaxWidth && (cols > MaxWidth + 8 ==> r.width == MaxWidth)
    // the box is centred: equal margins, off by one cell at most
    ensures r.width + 2 * r.left <= cols <= r.width + 2 * r.left + 1
    // a tall terminal gives the passage its upper half; a short one all but four rows
    ensures rows > 27 ==> r.top + r.height == rows / 2
    ensures rows <= 27 ==> r.top + r.height + 2 == rows
    // below the widest setting the margin is 4 cells, 14 from 120 columns on,
    // and the box takes the rest
    ensures cols <= MaxWidth + 8 ==> r.width + 2 * r.left == cols
    ensures PaddingAside * 4 < cols <= MaxWidth + 8 ==> r.left == cols / MaxWidth * PaddingAside + 4
    ensures PaddingAside * 4 < cols < MaxWidth ==> r.left == 4
    ensures MaxWidth <= cols <= MaxWidth + 8 ==> r.left == 14
    ensures cols <= PaddingAside * 4 ==> r.left == 4
  {
    var height := if rows > 27 then rows / 2 - PaddingTop else rows - PaddingTop * 2;
    if cols > MaxWidth + 8 then
      Rect(MaxWidth, height, (cols - MaxWidth) / 2, PaddingTop)
    else if cols > PaddingAside * 4 then
      var aside := cols / MaxWidth * PaddingAside + 4;
      Rect(cols - aside * 2, height, aside, PaddingTop)
    else
      Rect(cols - 8, height, 4, PaddingTop)
  }

  const U32: nat := 0x1_0000_0000

  /** The panics of the speed figure in a checked build. */
  datatype ArithmeticPanic = MultiplyOverflow | DivideByZero

  /** `counter.get_typed_words() * 60u32 / interval as u32`, or `None` for the
      "NaN" shown when no whole second has passed. The product is a `u32` and
      the seconds are cut to 32 bits before dividing. */
  function Speed(typed: nat, secs: nat): (r: Result<Option<nat>, ArithmeticPanic>)
    ensures r == Ok(None) <==> secs == 0
    ensures r.Err? <==> secs != 0 && (typed * 60 >= U32 || secs % U32 == 0)
    // syllables per minute, rounded down
    ensures r.Ok? && r.value.Some? && secs < U32 ==>
      r.value.value * secs <= typed * 60 < (r.value.value + 1) * secs
  {
    if secs == 0 then Ok(None)
    else if typed * 60 >= U32 then Err(MultiplyOverflow)
    else if secs % U32 == 0 then Err(DivideByZero)
    else Ok(Some(typed * 60 / (secs % U32)))
  }

  /** `{:02}:{:02}` of `interval / 60` and `interval % 60`. */
  function Clock(secs: nat): (mm_ss: (nat, nat))
    ensures mm_ss.0 * 60 + mm_ss.1 == secs && mm_ss.1 < 60
  {
    (secs / 60, secs % 60)
  }

  /** The figures the status bar and the summary show at instant `now`. */
  function Figures(c: Counter, now: nat): (Result<Option<nat>, ArithmeticPanic>, (nat, nat)) {
    var secs := Seconds(Interval(c, now));
    (Speed(c.typed, secs), Clock(secs))
  }

  /** Once the counter is locked, the summary reads the same whenever it is drawn. */
  lemma LockedFiguresStable(c: Counter, now: nat, t1: nat, t2: nat)
    ensures Figures(Lock(c, now), t1) == Figures(Lock(c, now), t2)
  {
  }
}

=== FILE: sessions.dfy ===
/** The typing session of `Input` (src/input.rs): one passage, a cursor at the
    last passed unit, and a phase telling whether the initial or the final of
    the next unit is expected. Each key press is judged against the key map,
    updates the unit's status, the cursor, the phase and the counter, and
    yields what the keyboard picture should highlight next.

    The source's panics (an `unwrap` on a missing unit or phoneme entry, a
    byte slice that does not fall on a character boundary) are a `Crashed`
    outcome here, so that every state and key has a defined result. */
module Sessions {
  import opened Wrappers
  import opened Syllables
  import opened KeyMaps
  import opened Counters

  /** The fields of `Input` that a key press reads or writes. */
  datatype Session = Session(
    units: seq<Unit>,
    passed: nat,              // index of the last passed unit; unit 0 is the leading space
    typingConsonant: bool,    // true while the initial is expected, false while the final is
    counter: Counter,
    stopped: bool,
    restart: bool,
    end: bool)

  /** Units with a reading among `units[lo..hi]`. */
  function WordsIn(units: seq<Unit>, lo: nat, hi: nat): nat
    requires lo <= hi <= |units|
    decreases hi - lo
  {
    if lo == hi then 0 else WordsIn(units, lo, hi - 1) + (if units[hi - 1].IsMark() then 0 else 1)
  }

  /** `total_words`: the fold over the passage counting units that are not marks. */
  function Words(units: seq<Unit>): nat {
    WordsIn(units, 0, |units|)
  }

  function NonMarks(units: seq<Unit>): set<nat> {
    set i: nat | i < |units| && !units[i].IsMark()
  }

  /** The fold counts exactly the positions that hold a reading. */
  lemma {:induction false} WordsCountsReadings(units: seq<Unit>, hi: nat)
    requires hi <= |units|
    ensures WordsIn(units, 0, hi) == |set i: nat | i < hi && !units[i].IsMark()|
    decreases hi
  {
    if hi > 0 {
      WordsCountsReadings(units, hi - 1);
      var before := set i: nat | i < hi - 1 && !units[i].IsMark();
      var now := set i: nat | i < hi && !units[i].IsMark();
      if units[hi - 1].IsMark() {
        assert now == before;
      } else {
        assert now == before + {hi - 1};
        assert hi - 1 !in before;
      }
    }
  }

  /** `Input::new` for a chosen passage, at instant `now`. */
  function SessionNew(units: seq<Unit>, km: KeyMap, now: nat): (s: Session)
    ensures s.units == units && s.passed == 0 && s.typingConsonant
    ensures !s.end && !s.stopped && !s.restart
    ensures s.counter.total == |NonMarks(units)|
    ensures s.counter.typed == 0 && s.counter.mistakes == 0 && !s.counter.locked
    ensures s.counter.keyMapName == km.name
  {
    WordsCountsReadings(units, |units|);
    Session(units, 0, true, NewCounter(Words(units), km.name, now), false, false, false)
  }

  /** Only statuses differ between `a` and `b`. */
  predicate SameReadings(a: seq<Unit>, b: seq<Unit>) {
    |a| == |b| && forall i :: 0 <= i < |a| ==> a[i].glyph == b[i].glyph && a[i].pin == b[i].pin
  }

  datatype Cursor = Cursor(units: seq<Unit>, passed: nat)

  /** The mark-skipping loops of `check_input`: every mark right after the
      cursor becomes `Passed` and the cursor moves onto it, until the unit after
      the cursor has a reading or there is no unit after the cursor. */
  function SkipMarks(units: seq<Unit>, passed: nat): (c: Cursor)
    ensures SameReadings(c.units, units)
    ensures passed <= c.passed && (c.passed == passed || c.passed < |units|)
    ensures forall i :: passed < i <= c.passed ==> units[i].IsMark() && c.units[i].status == Passed
    ensures forall i :: 0 <= i < |units| && !(passed < i <= c.passed) ==> c.units[i] == units[i]
    ensures c.passed + 1 >= |units| || !units[c.passed + 1].IsMark()
    decreases |units| - passed
  {
    if passed + 1 < |units| && units[passed + 1].IsMark() then
      SkipMarks(units[passed + 1 := units[passed + 1].(status := Passed)], passed + 1)
    else Cursor(units, passed)
  }

  /** Skipping again, with no key in between, changes nothing. */
  lemma SkipMarksIdempotent(units: seq<Unit>, passed: nat)
    ensures var c := SkipMarks(units, passed); SkipMarks(c.units, c.passed) == c
  {
  }

  /** The ways a key press can make the source panic. */
  datatype Crash =
    | NothingToType               // no unit after the skipped marks
    | NoKeysFor(phoneme: string)  // the key map has no entry for the phoneme looked up
    | NotACharBoundary            // `final[0..1]` of an empty final or one led by a multi-byte letter

  function KeysFor(km: KeyMap, phoneme: string): Result<seq<char>, Crash> {
    if phoneme in km.keys then Ok(km.keys[phoneme]) else Err(NoKeysFor(phoneme))
  }

  /** `&s[0..1]`: the first byte of `s`, a whole character only when `s`
      opens with an ASCII character. */
  function FirstByte(s: string): (r: Result<string, Crash>)
    ensures r.Ok? <==> |s| > 0 && s[0] as int < 0x80
    ensures r.Ok? ==> r.value == s[..1]
  {
    if |s| > 0 && s[0] as int < 0x80 then Ok([s[0]]) else Err(NotACharBoundary)
  }

  /** The "er" rule applies: a zero-initial "er" while `split_er` is on, and
      the key pressed is not the leader. */
  predicate SplitsEr(km: KeyMap, h: Halves, pressed: char) {
    h.initial == [] && h.final == "er" && km.splitEr && pressed != km.leader
  }

  /** The phoneme whose keys the pressed key is checked against, or `None`
      when the only accepted key is the leader itself. */
  function ExpectedPhoneme(km: KeyMap, h: Halves, consonant: bool, pressed: char): (r: Result<Option<string>, Crash>)
    // only a zero initial under a leader other than `*` is judged by the key itself
    ensures r == Ok(None) <==> consonant && h.initial == [] && km.leader != '*' && !SplitsEr(km, h, pressed)
    // only a zero initial under `*` whose final cannot be cut after one byte fails
    ensures r.Err? <==>
      consonant && h.initial == [] && km.leader == '*' && !SplitsEr(km, h, pressed)
      && !(|h.final| > 0 && h.final[0] as int < 0x80)
    // a non-empty initial, and every final outside the "er" rule, name themselves
    ensures !SplitsEr(km, h, pressed) && (if consonant then h.initial != [] else true) ==>
      r == Ok(Some(if consonant then h.initial else h.final))
  {
    if consonant then
      if SplitsEr(km, h, pressed) then Ok(Some("e"))
      else if h.initial == [] then
        if km.leader == '*' then
          var p :- FirstByte(h.final);
          Ok(Some(p))
        else Ok(None)
      else Ok(Some(h.initial))
    else if SplitsEr(km, h, pressed) then Ok(Some("r"))
    else Ok(Some(h.final))
  }

  /** Whether `pressed` is right for the current half of a syllable. */
  function Accepts(km: KeyMap, h: Halves, consonant: bool, pressed: char): (r: Result<bool, Crash>)
    // a zero initial under a leader key other than `*` is opened by that key and no other,
    // whatever the final
    ensures consonant && h.initial == [] && km.leader != '*' && !SplitsEr(km, h, pressed) ==>
      r == Ok(pressed == km.leader)
    // under the `*` leader it takes the keys bound to the final's first letter; a final
    // that does not open with a one-byte character cannot be cut there
    ensures consonant && h.initial == [] && km.leader == '*' && !SplitsEr(km, h, pressed) ==>
      r == (if |h.final| > 0 && h.final[0] as int < 0x80 then
              (if [h.final[0]] in km.keys then Ok(pressed in km.keys[[h.final[0]]]) else Err(NoKeysFor([h.final[0]])))
            else Err(NotACharBoundary))
    // under the "er" rule, the initial half takes the keys of "e" and the final half those of "r"
    ensures SplitsEr(km, h, pressed) && consonant ==>
      r == (if "e" in km.keys then Ok(pressed in km.keys["e"]) else Err(NoKeysFor("e")))
    ensures SplitsEr(km, h, pressed) && !consonant ==>
      r == (if "r" in km.keys then Ok(pressed in km.keys["r"]) else Err(NoKeysFor("r")))
    // an ordinary initial takes the keys bound to it
    ensures consonant && h.initial != [] ==> r == (if h.initial in km.keys then Ok(pressed in km.keys[h.initial]) else Err(NoKeysFor(h.initial)))
    // outside the "er" rule, a final takes the keys bound to it ("er" itself is the `leader_er` entry)
    ensures !consonant && !SplitsEr(km, h, pressed) ==> r == (if h.final in km.keys then Ok(pressed in km.keys[h.final]) else Err(NoKeysFor(h.final)))
  {
    var phoneme :- ExpectedPhoneme(km, h, consonant, pressed);
    match phoneme
    case None => Ok(pressed == km.leader)
    case Some(p) =>
      var keys :- KeysFor(km, p);
      Ok(pressed in keys)
  }

  /** The judgement of `check_input` on `pressed`, after the leading marks are skipped. */
  function Verdict(s: Session, km: KeyMap, pressed: char): Result<bool, Crash> {
    var a := SkipMarks(s.units, s.passed);
    if a.passed + 1 >= |a.units| then Err(NothingToType)
    else Accepts(km, a.units[a.passed + 1].pin.value.halves, s.typingConsonant, pressed)
  }

  /** Unit `j` is the first one after `passed` that has a reading. */
  predicate NextSyllableAt(units: seq<Unit>, passed: nat, j: nat) {
    && passed < j < |units|
    && !units[j].IsMark()
    && forall i :: passed < i < j ==> units[i].IsMark()
  }

  /** A key press is judged against the first syllable after the cursor, and
      the source panics when only marks are left. */
  lemma VerdictMeaning(s: Session, km: KeyMap, pressed: char)
    ensures Verdict(s, km, pressed) == Err(NothingToType) <==> OnlyMarksAfter(s.units, s.passed)
    ensures forall j: nat :: NextSyllableAt(s.units, s.passed, j) ==>
      Verdict(s, km, pressed) == Accepts(km, s.units[j].pin.value.halves, s.typingConsonant, pressed)
  {
  }

  /** Colours of the keyboard picture: the pressed key right or wrong, and the
      keys expected next. */
  datatype Tint = Hit | Miss | Next

  /** What the screen is told after a key press. */
  datatype Feedback = Quiet | Redraw(highlight: map<char, Tint>) | Summary

  datatype Outcome = Continue(session: Session, feedback: Feedback) | Quit | Crashed(reason: Crash)

  /** The phoneme whose keys are highlighted as expected next. Unlike the
      check of a key, this lookup knows nothing of the "er" rule, and for a
      zero initial it looks the leader character up as a phoneme name (or the
      final's first letter under a `*` leader). */
  function NextPhoneme(km: KeyMap, h: Halves, consonant: bool): Result<string, Crash> {
    var part := if consonant then h.initial else h.final;
    if part != [] then Ok(part)
    else if km.leader == '*' then FirstByte(h.final)
    else Ok([km.leader])
  }

  /** Outside the "er" rule, the highlight looks up the phoneme the check
      of the next key will use, whenever that half is not empty (or is an
      empty initial under a `*` leader). */
  lemma NextMatchesExpected(km: KeyMap, h: Halves, consonant: bool, pressed: char)
    requires !SplitsEr(km, h, pressed)
    requires (if consonant then h.initial else h.final) != [] || (consonant && km.leader == '*')
    ensures ExpectedPhoneme(km, h, consonant, pressed) ==
      (match NextPhoneme(km, h, consonant)
       case Ok(p) => Ok(Some(p))
       case Err(e) => Err(e))
  {
  }

  /** Under the "er" rule the check wants the keys of "e" and then of "r",
      while the highlight shows the leader's entry (or, under a `*` leader,
      the keys of "e") and then the keys of "er". */
  lemma NextIgnoresEr(km: KeyMap, h: Halves, pressed: char)
    requires SplitsEr(km, h, pressed)
    ensures ExpectedPhoneme(km, h, true, pressed) == Ok(Some("e"))
    ensures ExpectedPhoneme(km, h, false, pressed) == Ok(Some("r"))
    ensures NextPhoneme(km, h, true) == (if km.leader == '*' then Ok("e") else Ok([km.leader]))
    ensures NextPhoneme(km, h, false) == Ok("er")
  {
  }

  /** An empty half under a leader other than `*` highlights the keys of the
      phoneme named by the leader character itself, whereas the check of a
      zero initial compares the key with the leader. */
  lemma NextLeaderEntry(km: KeyMap, h: Halves, consonant: bool, pressed: char)
    requires (if consonant then h.initial else h.final) == [] && km.leader != '*'
    ensures NextPhoneme(km, h, consonant) == Ok([km.leader])
    ensures consonant && !SplitsEr(km, h, pressed) ==> ExpectedPhoneme(km, h, consonant, pressed) == Ok(None)
    ensures !consonant && !SplitsEr(km, h, pressed) ==> ExpectedPhoneme(km, h, consonant, pressed) == Ok(Some([]))
  {
  }

  /** The highlight map: the pressed key tagged right or wrong, then every
      key of `next` tagged as expected, which wins where the two meet. */
  function Highlight(pressed: char, pass: bool, next: Option<seq<char>>): (hl: map<char, Tint>)
    ensures forall k :: k in hl <==> k == pressed || (next.Some? && k in next.value)
    ensures forall k :: next.Some? && k in next.value ==> hl[k] == Next
    ensures next.None? || pressed !in next.value ==> hl[pressed] == (if pass then Hit else Miss)
  {
    var tagged := map[pressed := if pass then Hit else Miss];
    match next
    case None => tagged
    case Some(ks) => tagged + map k | k in ks :: Next
  }

  /** The end of `check_input` when the session goes on: highlight the keys
      of the next expected phoneme. */
  function Highlighted(s: Session, km: KeyMap, pressed: char, pass: bool): (o: Outcome)
    requires s.passed + 1 < |s.units| && !s.units[s.passed + 1].IsMark()
    ensures o.Continue? ==> o.session == s && o.feedback.Redraw?
    ensures o.Continue? ==> pressed in o.feedback.highlight && o.feedback.highlight[pressed] in {if pass then Hit else Miss, Next}
    ensures !o.Quit?
  {
    match NextPhoneme(km, s.units[s.passed + 1].pin.value.halves, s.typingConsonant)
    case Err(e) => Crashed(e)
    case Ok(p) => Continue(s, Redraw(Highlight(pressed, pass, if p in km.keys then Some(km.keys[p]) else None)))
  }

  /** The redraw crashes exactly when the next phoneme cannot be named;
      otherwise it tags the pressed key and every key bound to that phoneme,
      and no other key. */
  lemma HighlightedKeys(s: Session, km: KeyMap, pressed: char, pass: bool)
    requires s.passed + 1 < |s.units| && !s.units[s.passed + 1].IsMark()
    ensures var o := Highlighted(s, km, pressed, pass);
      var next := NextPhoneme(km, s.units[s.passed + 1].pin.value.halves, s.typingConsonant);
      && (o.Crashed? <==> next.Err?)
      && (o.Continue? ==> next.Ok? && forall k :: k in o.feedback.highlight <==>
            k == pressed || (next.value in km.keys && k in km.keys[next.value]))
  {
  }

  /** No unit after `q` has a reading. */
  predicate OnlyMarksAfter(units: seq<Unit>, q: nat) {
    forall i :: q < i < |units| ==> units[i].IsMark()
  }

  /** A wrong key for the unit after cursor `a`: that unit is marked wrong in
      the current half, a mistake is counted, and neither the cursor nor the
      phase moves. */
  function Mistaken(s: Session, a: Cursor, km: KeyMap, pressed: char): (o: Outcome)
    requires a.passed + 1 < |a.units| && SameReadings(a.units, s.units)
    requires !a.units[a.passed + 1].IsMark()
    ensures o.Continue? ==>
      var t := o.session;
      && SameReadings(t.units, s.units)
      && t.passed == a.passed && t.typingConsonant == s.typingConsonant && t.end == s.end
      && t.units[t.passed + 1].status == (if s.typingConsonant then ErrorConsonant else ErrorVowel)
      && (forall i :: 0 <= i < |a.units| && i != a.passed + 1 ==> t.units[i] == a.units[i])
      && t.counter == AddMistake(s.counter)
      && t.stopped == s.stopped && t.restart == s.restart
      && o.feedback.Redraw? && pressed in o.feedback.highlight && o.feedback.highlight[pressed] in {Miss, Next}
  {
    var p := a.passed;
    var u := a.units[p + 1];
    var status := if s.typingConsonant then ErrorConsonant else ErrorVowel;
    Highlighted(s.(units := a.units[p + 1 := u.(status := status)], passed := p, counter := AddMistake(s.counter)), km, pressed, false)
  }

  /** A right initial for the unit after cursor `a`: the unit is half typed
      and its final is expected next; nothing is counted. */
  function HalfTyped(s: Session, a: Cursor, km: KeyMap, pressed: char): (o: Outcome)
    requires a.passed + 1 < |a.units| && SameReadings(a.units, s.units)
    requires !a.units[a.passed + 1].IsMark()
    ensures o.Continue? ==>
      var t := o.session;
      && SameReadings(t.units, s.units)
      && t.passed == a.passed && !t.typingConsonant && t.end == s.end
      && t.units[t.passed + 1].status == TypingHalf
      && (forall i :: 0 <= i < |a.units| && i != a.passed + 1 ==> t.units[i] == a.units[i])
      && t.counter == s.counter
      && t.stopped == s.stopped && t.restart == s.restart
      && o.feedback.Redraw? && pressed in o.feedback.highlight && o.feedback.highlight[pressed] in {Hit, Next}
  {
    var p := a.passed;
    var u := a.units[p + 1];
    Highlighted(s.(units := a.units[p + 1 := u.(status := TypingHalf)], passed := p, typingConsonant := false), km, pressed, true)
  }

  /** After the unit at `q` is passed, the session is over: that unit is
      within two of the end of the passage, or only marks follow it. */
  predicate Finishes(units: seq<Unit>, q: nat) {
    q >= |units| - 2 || OnlyMarksAfter(units, q)
  }

  /** The end of a session with `units` passed up to `p`: the counter is
      locked at `now` and the summary is shown. */
  function Finish(s: Session, units: seq<Unit>, p: nat, counter: Counter, now: nat): (o: Outcome)
    ensures o.Continue? && o.feedback == Summary
    ensures o.session.end && o.session.units == units && o.session.passed == p
    ensures o.session.counter.locked && Interval(o.session.counter, 0) == Since(now, counter.start)
    ensures o.session.counter.(locked := counter.locked, endTime := counter.endTime) == counter
    ensures o.session.stopped == s.stopped && o.session.restart == s.restart
  {
    Continue(s.(units := units, passed := p, counter := Lock(counter, now), end := true), Summary)
  }

  /** The move to the syllable after cursor `b`, whose initial is expected next. */
  function MoveOn(s: Session, b: Cursor, counter: Counter, km: KeyMap, pressed: char): (o: Outcome)
    requires b.passed + 1 < |b.units| && !b.units[b.passed + 1].IsMark()
    ensures o.Continue? ==>
      var t := o.session;
      && |t.units| == |b.units|
      && t.passed == b.passed && t.typingConsonant && t.end == s.end
      && t.units[t.passed + 1] == b.units[t.passed + 1].(status := Typing)
      && (forall i :: 0 <= i < |b.units| && i != b.passed + 1 ==> t.units[i] == b.units[i])
      && t.counter == counter
      && t.stopped == s.stopped && t.restart == s.restart
      // the pressed key was right: it is tagged so, unless the next syllable expects it too
      && o.feedback.Redraw?
      && pressed in o.feedback.highlight && o.feedback.highlight[pressed] in {Hit, Next}
  {
    var next := b.units[b.passed + 1];
    Highlighted(s.(units := b.units[b.passed + 1 := next.(status := Typing)], passed := b.passed, typingConsonant := true, counter := counter), km, pressed, true)
  }

  /** What follows once the unit at `q` is passed, with `counter` already
      counting it: the session ends, or the cursor moves over the marks after
      `q` to the next syllable. Units up to `q` are left as they are. */
  function AfterPassed(s: Session, units: seq<Unit>, q: nat, counter: Counter, km: KeyMap, pressed: char, now: nat): (o: Outcome)
    requires q < |units|
    ensures o.Continue? ==>
      var t := o.session;
      && SameReadings(t.units, units)
      && q <= t.passed < |units|
      && (forall i :: 0 <= i < |units| && (i <= q || t.passed + 1 < i) ==> t.units[i] == units[i])
      && t.counter.(locked := counter.locked, endTime := counter.endTime) == counter
      && t.stopped == s.stopped && t.restart == s.restart
  {
    if q >= |units| - 2 then
      Finish(s, units, q, counter, now)
    else
      var b := SkipMarks(units, q);
      if b.passed + 1 >= |b.units| then Finish(s, b.units, b.passed, counter, now)
      else MoveOn(s, b, counter, km, pressed)
  }

  /** A right final for the unit after cursor `a`: the unit is passed and
      counted. The session ends when that unit is within two of the end of the
      passage or only marks follow it; otherwise the cursor moves over the
      marks to the next syllable, whose initial is expected next. */
  function FinalPassed(s: Session, a: Cursor, km: KeyMap, pressed: char, now: nat): (o: Outcome)
    requires a.passed + 1 < |a.units| && SameReadings(a.units, s.units)
    ensures o.Continue? ==>
      var q := a.passed + 1;
      var t := o.session;
      && SameReadings(t.units, s.units)
      && q <= t.passed < |s.units|
      && t.units[q].status == Passed
      && (forall i :: 0 <= i < |s.units| && (i < q || t.passed + 1 < i) ==> t.units[i] == a.units[i])
      && t.counter.total == s.counter.total && t.counter.start == s.counter.start
      && t.counter.typed == s.counter.typed + 1
      && t.counter.mistakes == s.counter.mistakes
      && t.stopped == s.stopped && t.restart == s.restart
  {
    var q := a.passed + 1;
    var units := a.units[q := a.units[q].(status := Passed)];
    assert SameReadings(units, s.units);
    AfterPassed(s, units, q, AddTyped(s.counter), km, pressed, now)
  }

  /** Whether the session ends after the unit at `q` is passed, and the
      state it leaves otherwise: the next syllable is being typed from its
      initial. */
  lemma AfterPassedEnds(s: Session, units: seq<Unit>, q: nat, counter: Counter, km: KeyMap, pressed: char, now: nat)
    requires q < |units|
    ensures AfterPassed(s, units, q, counter, km, pressed, now).Continue? ==>
      var o := AfterPassed(s, units, q, counter, km, pressed, now);
      var t := o.session;
      && (forall i :: q < i <= t.passed ==> units[i].IsMark() && t.units[i].status == Passed)
      && (o.feedback == Summary <==> Finishes(units, q))
      && (Finishes(units, q) ==> t.end && t.counter.locked && Interval(t.counter, 0) == Since(now, counter.start))
      && (!Finishes(units, q) ==>
            && t.end == s.end
            && t.counter.locked == counter.locked
            && t.typingConsonant
            && t.passed + 1 < |units|
            && !units[t.passed + 1].IsMark()
            && t.units[t.passed + 1].status == Typing
            && o.feedback.Redraw?
            && pressed in o.feedback.highlight && o.feedback.highlight[pressed] in {Hit, Next})
  {
    if q < |units| - 2 {
      var b := SkipMarks(units, q);
      if b.passed + 1 >= |b.units| {
        assert OnlyMarksAfter(units, q);
      } else {
        assert !units[b.passed + 1].IsMark();
      }
    }
  }

  /** After a right final, the cursor stands on the passed unit or on a
      mark after it, and every mark it moved over is passed. */
  lemma FinalPassedMarks(s: Session, a: Cursor, km: KeyMap, pressed: char, now: nat)
    requires a.passed + 1 < |a.units| && SameReadings(a.units, s.units)
    ensures FinalPassed(s, a, km, pressed, now).Continue? ==>
      var t := FinalPassed(s, a, km, pressed, now).session;
      && a.passed + 1 <= t.passed < |s.units|
      && (forall i :: a.passed + 1 < i <= t.passed ==> s.units[i].IsMark() && t.units[i].status == Passed)
  {
    var q := a.passed + 1;
    var units := a.units[q := a.units[q].(status := Passed)];
    AfterPassedEnds(s, units, q, AddTyped(s.counter), km, pressed, now);
  }

  /** A right final ends the session, locking the counter and showing the
      summary, exactly when the passed unit is within two of the end of the
      passage or only marks follow it. */
  lemma FinalPassedEnds(s: Session, a: Cursor, km: KeyMap, pressed: char, now: nat)
    requires a.passed + 1 < |a.units| && SameReadings(a.units, s.units)
    ensures FinalPassed(s, a, km, pressed, now).Continue? ==>
      var o := FinalPassed(s, a, km, pressed, now);
      var t := o.session;
      && (o.feedback == Summary <==> Finishes(s.units, a.passed + 1))
      && (Finishes(s.units, a.passed + 1) ==> t.end && t.counter.locked && Interval(t.counter, 0) == Since(now, s.counter.start))
      // ending touches no status past the cursor
      && (Finishes(s.units, a.passed + 1) ==> forall i :: t.passed < i < |s.units| ==> t.units[i] == a.units[i])
  {
    var q := a.passed + 1;
    var units := a.units[q := a.units[q].(status := Passed)];
    assert SameReadings(units, s.units);
    AfterPassedEnds(s, units, q, AddTyped(s.counter), km, pressed, now);
    assert Finishes(units, q) <==> Finishes(s.units, q);
  }

  /** When a right final does not end the session, the next syllable is
      being typed from its initial. */
  lemma FinalPassedGoesOn(s: Session, a: Cursor, km: KeyMap, pressed: char, now: nat)
    requires a.passed + 1 < |a.units| && SameReadings(a.units, s.units)
    requires !Finishes(s.units, a.passed + 1)
    ensures FinalPassed(s, a, km, pressed, now).Continue? ==>
      var o := FinalPassed(s, a, km, pressed, now);
      var t := o.session;
      && t.end == s.end
      && t.counter.locked == s.counter.locked
      && t.typingConsonant
      && t.passed + 1 < |s.units|
      && !s.units[t.passed + 1].IsMark()
      && t.units[t.passed + 1].status == Typing
      // the right final is tagged so, unless the next syllable expects that key too
      && o.feedback.Redraw?
      && pressed in o.feedback.highlight && o.feedback.highlight[pressed] in {Hit, Next}
  {
    var q := a.passed + 1;
    var units := a.units[q := a.units[q].(status := Passed)];
    assert SameReadings(units, s.units);
    AfterPassedEnds(s, units, q, AddTyped(s.counter), km, pressed, now);
    assert Finishes(units, q) <==> Finishes(s.units, q);
  }

  /** `check_input` for a key press `pressed` at instant `now`: skip the marks
      after the cursor, then judge the key against the unit that follows. */
  function CheckInput(s: Session, km: KeyMap, pressed: char, now: nat): (o: Outcome)
    ensures !o.Quit?
    ensures Verdict(s, km, pressed).Err? ==> o == Crashed(Verdict(s, km, pressed).error)
    ensures Verdict(s, km, pressed).Ok? ==>
      var a := SkipMarks(s.units, s.passed);
      && a.passed + 1 < |a.units| && !a.units[a.passed + 1].IsMark()
      && SameReadings(a.units, s.units)
      && o == (if !Verdict(s, km, pressed).value then Mistaken(s, a, km, pressed)
               else if s.typingConsonant then HalfTyped(s, a, km, pressed)
               else FinalPassed(s, a, km, pressed, now))
  {
    match Verdict(s, km, pressed)
    case Err(e) => Crashed(e)
    case Ok(pass) =>
      var a := SkipMarks(s.units, s.passed);
      if !pass then Mistaken(s, a, km, pressed)
      else if s.typingConsonant then HalfTyped(s, a, km, pressed)
      else FinalPassed(s, a, km, pressed, now)
  }

  datatype Modifiers = NoModifiers | Control | OtherModifiers
  datatype KeyCode = CharKey(c: char) | OtherKey
  datatype KeyEvent = KeyEvent(modifiers: Modifiers, code: KeyCode)

  /** `process_key_event` with `process_ctrl_key_event`: Ctrl-Q quits, Ctrl-R
      stops the session and asks for a restart, other Ctrl keys and keys with
      other modifiers do nothing, and a plain character is checked unless the
      session has ended. */
  function HandleKey(s: Session, km: KeyMap, ev: KeyEvent, now: nat): (o: Outcome)
    ensures o.Quit? <==> ev == KeyEvent(Control, CharKey('q'))
    ensures ev == KeyEvent(Control, CharKey('r')) ==> o == Continue(s.(stopped := true, restart := true), Quiet)
    ensures s.end && ev.modifiers != Control ==> o == Continue(s, Quiet)
    ensures ev.modifiers == NoModifiers && !s.end && ev.code.CharKey? ==> o == CheckInput(s, km, ev.code.c, now)
    ensures o.Continue? && o.session.stopped != s.stopped ==> ev == KeyEvent(Control, CharKey('r'))
    // every other event leaves the session as it is and draws nothing
    ensures ev.modifiers == Control && ev.code != CharKey('q') && ev.code != CharKey('r') ==> o == Continue(s, Quiet)
    ensures ev.modifiers == OtherModifiers ==> o == Continue(s, Quiet)
    ensures ev.modifiers == NoModifiers && !ev.code.CharKey? ==> o == Continue(s, Quiet)
  {
    match ev.modifiers
    case Control =>
      if ev.code == CharKey('q') then Quit
      else if ev.code == CharKey('r') then Continue(s.(stopped := true, restart := true), Quiet)
      else Continue(s, Quiet)
    case NoModifiers =>
      if s.end then Continue(s, Quiet)
      else if ev.code.CharKey? then CheckInput(s, km, ev.code.c, now)
      else Continue(s, Quiet)
    case OtherModifiers => Continue(s, Quiet)
  }
}

/** What every session reached from a fresh one by key presses satisfies,
    and the proof that `HandleKey` keeps it. */
module SessionInvariant {
  import opened Wrappers
  import opened Syllables
  import opened KeyMaps
  import opened Sessions

  /** The status a unit right after the cursor may have in each phase. */
  predicate CursorStatus(st: Status, consonant: bool) {
    if consonant then st == Future || st == Typing || st == ErrorConsonant
    else st == TypingHalf || st == ErrorVowel
  }

  predicate Inv(s: Session) {
    && s.passed < |s.units|
    && (forall i :: 0 < i <= s.passed ==> s.units[i].status == Passed)
    && (forall i :: s.passed + 1 < i < |s.units| ==> s.units[i].status == Future)
    && (forall i :: 0 <= i < |s.units| && s.units[i].IsMark() ==> s.units[i].status == Future || s.units[i].status == Passed)
    && (!s.end && s.passed + 1 < |s.units| ==> CursorStatus(s.units[s.passed + 1].status, s.typingConsonant))
    && (!s.end && !s.typingConsonant ==> s.passed + 1 < |s.units| && !s.units[s.passed + 1].IsMark())
    && s.counter.total == Words(s.units)
    && s.counter.typed == WordsIn(s.units, 1, s.passed + 1)
    && (s.end <==> s.counter.locked)
  }

  lemma {:induction false} WordsInSame(a: seq<Unit>, b: seq<Unit>, lo: nat, hi: nat)
    requires SameReadings(a, b) && lo <= hi <= |a|
    ensures WordsIn(a, lo, hi) == WordsIn(b, lo, hi)
    decreases hi - lo
  {
    if lo < hi {
      WordsInSame(a, b, lo, hi - 1);
    }
  }

  /** Marks add nothing to the count. */
  lemma {:induction false} WordsInMarks(u: seq<Unit>, lo: nat, x: nat, y: nat)
    requires lo <= x <= y <= |u|
    requires forall i :: x <= i < y ==> u[i].IsMark()
    ensures WordsIn(u, lo, y) == WordsIn(u, lo, x)
    decreases y - x
  {
    if x < y {
      WordsInMarks(u, lo, x, y - 1);
    }
  }

  lemma {:induction false} WordsInMonotone(u: seq<Unit>, lo: nat, x: nat, y: nat)
    requires lo <= x <= y <= |u|
    ensures WordsIn(u, lo, x) <= WordsIn(u, lo, y)
    decreases y - x
  {
    if x < y {
      WordsInMonotone(u, lo, x, y - 1);
    }
  }

  lemma {:induction false} WordsInSplit(u: seq<Unit>, lo: nat, mid: nat, hi: nat)
    requires lo <= mid <= hi <= |u|
    ensures WordsIn(u, lo, hi) == WordsIn(u, lo, mid) + WordsIn(u, mid, hi)
    decreases hi - mid
  {
    if mid < hi {
      WordsInSplit(u, lo, mid, hi - 1);
    }
  }

  /** The count of typed syllables never exceeds the passage's words. */
  lemma TypedWithinTotal(s: Session)
    requires Inv(s)
    ensures s.counter.typed <= s.counter.total
  {
    WordsInSplit(s.units, 0, 1, s.passed + 1);
    WordsInMonotone(s.units, 0, s.passed + 1, |s.units|);
  }

  /** A fresh session over a fresh passage satisfies the invariant. */
  lemma NewSessionInv(units: seq<Unit>, km: KeyMap, now: nat)
    requires |units| > 0
    requires forall i :: 0 <= i < |units| ==> units[i].status == Future
    ensures Inv(SessionNew(units, km, now))
  {
  }

  /** The cursor after the skipped marks, in a session that satisfies the invariant. */
  lemma SkipKeepsCount(s: Session, a: Cursor)
    requires Inv(s) && a == SkipMarks(s.units, s.passed)
    ensures a.passed < |s.units|
    ensures WordsIn(a.units, 1, a.passed + 1) == s.counter.typed
    ensures forall i :: 0 < i <= a.passed ==> a.units[i].status == Passed
    ensures forall i :: a.passed + 1 < i < |s.units| ==> a.units[i].status == Future
    ensures forall i :: 0 <= i < |s.units| && a.units[i].IsMark() ==> a.units[i].status == Future || a.units[i].status == Passed
  {
    WordsInSame(a.units, s.units, 1, a.passed + 1);
    WordsInMarks(s.units, 1, s.passed + 1, a.passed + 1);
  }

  /** A cursor that has skipped the marks and faces a syllable. */
  predicate Facing(s: Session, a: Cursor) {
    && a == SkipMarks(s.units, s.passed)
    && a.passed + 1 < |a.units|
    && !a.units[a.passed + 1].IsMark()
  }

  /** What the invariant says of a session once its cursor `a` has skipped
      the marks and faces a syllable. */
  predicate Skipped(s: Session, a: Cursor) {
    && SameReadings(a.units, s.units)
    && a.passed + 1 < |a.units| && !a.units[a.passed + 1].IsMark()
    && (forall i :: 0 < i <= a.passed ==> a.units[i].status == Passed)
    && (forall i :: a.passed + 1 < i < |a.units| ==> a.units[i].status == Future)
    && (forall i :: 0 <= i < |a.units| && a.units[i].IsMark() ==> a.units[i].status == Future || a.units[i].status == Passed)
    && s.counter.total == Words(s.units)
    && WordsIn(a.units, 1, a.passed + 1) == s.counter.typed
  }

  /** A key that leaves the cursor on the syllable it faces keeps the
      invariant when it gives that syllable a status fit for the new phase
      and counts nothing typed. */
  lemma StayKeepsInv(s: Session, a: Cursor, t: Session)
    requires Skipped(s, a)
    requires SameReadings(t.units, s.units) && t.passed == a.passed
    requires forall i :: 0 <= i < |a.units| && i != a.passed + 1 ==> t.units[i] == a.units[i]
    requires CursorStatus(t.units[t.passed + 1].status, t.typingConsonant)
    requires !t.end && !t.counter.locked
    requires t.counter.total == s.counter.total && t.counter.typed == s.counter.typed
    ensures Inv(t)
  {
    WordsInSame(t.units, s.units, 0, |s.units|);
    WordsInSame(t.units, a.units, 1, a.passed + 1);
  }

  lemma MistakenKeepsInv(s: Session, a: Cursor, km: KeyMap, pressed: char)
    requires Inv(s) && !s.end && Facing(s, a)
    ensures var o := Mistaken(s, a, km, pressed); o.Continue? ==> Inv(o.session)
  {
    var o := Mistaken(s, a, km, pressed);
    if o.Continue? {
      SkipKeepsCount(s, a);
      StayKeepsInv(s, a, o.session);
    }
  }

  lemma HalfTypedKeepsInv(s: Session, a: Cursor, km: KeyMap, pressed: char)
    requires Inv(s) && !s.end && s.typingConsonant && Facing(s, a)
    ensures var o := HalfTyped(s, a, km, pressed); o.Continue? ==> Inv(o.session)
  {
    var o := HalfTyped(s, a, km, pressed);
    if o.Continue? {
      SkipKeepsCount(s, a);
      StayKeepsInv(s, a, o.session);
    }
  }

  lemma FinalPassedStatuses(s: Session, a: Cursor, km: KeyMap, pressed: char, now: nat)
    requires Inv(s) && !s.end && !s.typingConsonant && Facing(s, a)
    ensures var o := FinalPassed(s, a, km, pressed, now); o.Continue? ==>
      var t := o.session;
      && (forall i :: 0 < i <= t.passed ==> t.units[i].status == Passed)
      && (forall i :: t.passed + 1 < i < |t.units| ==> t.units[i].status == Future)
      && (forall i :: 0 <= i < |t.units| && t.units[i].IsMark() ==> t.units[i].status == Future || t.units[i].status == Passed)
  {
    SkipKeepsCount(s, a);
    FinalPassedMarks(s, a, km, pressed, now);
    FinalPassedEnds(s, a, km, pressed, now);
    if !Finishes(s.units, a.passed + 1) {
      FinalPassedGoesOn(s, a, km, pressed, now);
    }
  }

  lemma FinalPassedCounts(s: Session, a: Cursor, km: KeyMap, pressed: char, now: nat)
    requires Inv(s) && !s.end && !s.typingConsonant && Facing(s, a)
    ensures var o := FinalPassed(s, a, km, pressed, now); o.Continue? ==>
      var t := o.session;
      && t.passed < |t.units|
      && t.counter.total == Words(t.units)
      && t.counter.typed == WordsIn(t.units, 1, t.passed + 1)
  {
    var o := FinalPassed(s, a, km, pressed, now);
    SkipKeepsCount(s, a);
    if o.Continue? {
      var t := o.session;
      var q := a.passed + 1;
      FinalPassedMarks(s, a, km, pressed, now);
      WordsInSame(t.units, s.units, 0, |s.units|);
      CountAfterFinal(s.units, a.units, t.units, q, t.passed);
    }
  }

  /** The count after passing the syllable at `q` and the marks up to `tp`. */
  lemma CountAfterFinal(su: seq<Unit>, au: seq<Unit>, tu: seq<Unit>, q: nat, tp: nat)
    requires SameReadings(au, su) && SameReadings(tu, su)
    requires 0 < q <= tp < |su|
    requires forall i :: q < i <= tp ==> su[i].IsMark()
    requires !su[q].IsMark()
    ensures WordsIn(tu, 1, tp + 1) == WordsIn(au, 1, q) + 1
  {
    WordsInSame(tu, su, 1, tp + 1);
    WordsInMarks(su, 1, q + 1, tp + 1);
    WordsInSame(au, su, 1, q);
  }

  lemma FinalPassedPhase(s: Session, a: Cursor, km: KeyMap, pressed: char, now: nat)
    requires Inv(s) && !s.end && !s.typingConsonant && Facing(s, a)
    ensures var o := FinalPassed(s, a, km, pressed, now); o.Continue? ==>
      var t := o.session;
      && (!t.end && t.passed + 1 < |t.units| ==> CursorStatus(t.units[t.passed + 1].status, t.typingConsonant))
      && (!t.end && !t.typingConsonant ==> t.passed + 1 < |t.units| && !t.units[t.passed + 1].IsMark())
      && (t.end <==> t.counter.locked)
  {
    FinalPassedEnds(s, a, km, pressed, now);
    if !Finishes(s.units, a.passed + 1) {
      FinalPassedGoesOn(s, a, km, pressed, now);
    }
  }

  lemma FinalPassedKeepsInv(s: Session, a: Cursor, km: KeyMap, pressed: char, now: nat)
    requires Inv(s) && !s.end && !s.typingConsonant && Facing(s, a)
    ensures var o := FinalPassed(s, a, km, pressed, now); o.Continue? ==> Inv(o.session)
  {
    FinalPassedStatuses(s, a, km, pressed, now);
    FinalPassedCounts(s, a, km, pressed, now);
    FinalPassedPhase(s, a, km, pressed, now);
  }

  lemma CheckInputKeepsInv(s: Session, km: KeyMap, pressed: char, now: nat)
    requires Inv(s) && !s.end
    ensures var o := CheckInput(s, km, pressed, now); o.Continue? ==> Inv(o.session)
  {
    var a := SkipMarks(s.units, s.passed);
    match Verdict(s, km, pressed)
    case Err(_) =>
    case Ok(pass) =>
      assert Facing(s, a);
      if !pass {
        MistakenKeepsInv(s, a, km, pressed);
      } else if s.typingConsonant {
        HalfTypedKeepsInv(s, a, km, pressed);
      } else {
        FinalPassedKeepsInv(s, a, km, pressed, now);
      }
  }

  /** Every key press that does not quit or crash keeps the invariant. */
  lemma StepKeepsInv(s: Session, km: KeyMap, ev: KeyEvent, now: nat)
    requires Inv(s)
    ensures var o := HandleKey(s, km, ev, now); o.Continue? ==> Inv(o.session)
  {
    if ev.modifiers == NoModifiers && !s.end && ev.code.CharKey? {
      CheckInputKeepsInv(s, km, ev.code.c, now);
    }
  }

  /** Whatever key arrives, the word total stays put and the typed and
      mistake counts each rise by at most one, never both at once. */
  lemma CountersMove(s: Session, km: KeyMap, ev: KeyEvent, now: nat)
    ensures var o := HandleKey(s, km, ev, now); o.Continue? ==>
      var c := o.session.counter;
      && c.total == s.counter.total
      && (c.typed == s.counter.typed || c.typed == s.counter.typed + 1)
      && (c.mistakes == s.counter.mistakes || c.mistakes == s.counter.mistakes + 1)
      && !(c.typed > s.counter.typed && c.mistakes > s.counter.mistakes)
  {
    if ev.modifiers == NoModifiers && !s.end && ev.code.CharKey? {
      var pressed := ev.code.c;
      match Verdict(s, km, pressed)
      case Err(_) =>
      case Ok(pass) =>
        var a := SkipMarks(s.units, s.passed);
        if pass && !s.typingConsonant {
          FinalPassedEnds(s, a, km, pressed, now);
        }
    }
  }

  /** A right initial and then a right final type exactly one syllable: the
      units passed up to the cursor hold one more reading than before, one
      more word is counted, and no mistake. */
  lemma SyllableTyped(s: Session, km: KeyMap, k1: char, k2: char, t1: nat, t2: nat)
    requires Inv(s) && !s.end && s.typingConsonant
    requires Verdict(s, km, k1) == Ok(true)
    ensures var o1 := HandleKey(s, km, KeyEvent(NoModifiers, CharKey(k1)), t1);
      o1.Continue? ==>
        var s1 := o1.session;
        && !s1.typingConsonant && !s1.end && s1.counter == s.counter
        && (Verdict(s1, km, k2) == Ok(true) ==>
              var o2 := HandleKey(s1, km, KeyEvent(NoModifiers, CharKey(k2)), t2);
              o2.Continue? ==>
                && o2.session.counter.typed == s.counter.typed + 1
                && o2.session.counter.mistakes == s.counter.mistakes
                && WordsIn(o2.session.units, 1, o2.session.passed + 1) == WordsIn(s.units, 1, s.passed + 1) + 1)
  {
    var o1 := HandleKey(s, km, KeyEvent(NoModifiers, CharKey(k1)), t1);
    if o1.Continue? {
      CheckInputKeepsInv(s, km, k1, t1);
      var s1 := o1.session;
      if Verdict(s1, km, k2) == Ok(true) {
        var o2 := HandleKey(s1, km, KeyEvent(NoModifiers, CharKey(k2)), t2);
        CheckInputKeepsInv(s1, km, k2, t2);
      }
    }
  }
}

=== FILE: syllables.dfy ===
/** Syllables and passage units (src/pin.rs): the split of a plain pinyin
    spelling into initial and final, the per-character unit with its typing
    status, and the construction of a passage from text and the readings the
    pinyin dictionary reports for it. */
module Syllables {
  import opened Wrappers

  /** The letters that open a final: a, e, i, o, u, v and ü. */
  predicate IsVowel(c: char) {
    c == 'a' || c == 'e' || c == 'i' || c == 'o' || c == 'u' || c == 'v' || c == '\U{FC}'
  }

  predicate VowelFree(s: string) {
    forall i :: 0 <= i < |s| ==> !IsVowel(s[i])
  }

  /** The two halves of a syllable, typed with one key each. */
  datatype Halves = Halves(initial: string, final: string)

  /** `Pin::split`: everything before the first vowel is the initial, the rest
      (that vowel included) is the final. */
  function Split(plain: string): (h: Halves)
    ensures h.initial + h.final == plain
    ensures VowelFree(h.initial)
    ensures h.final == [] || IsVowel(h.final[0])
    ensures h.final == [] <==> VowelFree(plain)
    decreases |plain|
  {
    if |plain| == 0 then Halves([], [])
    else if IsVowel(plain[0]) then Halves([], plain)
    else
      var rest := Split(plain[1..]);
      assert plain == [plain[0]] + plain[1..];
      Halves([plain[0]] + rest.initial, rest.final)
  }

  /** The three properties of `Split` pin it down: any other way of cutting
      `plain` with a vowel-free front and a vowel-led (or empty) back is the same cut. */
  lemma {:induction false} SplitUnique(plain: string, h: Halves)
    requires h.initial + h.final == plain
    requires VowelFree(h.initial)
    requires h.final == [] || IsVowel(h.final[0])
    ensures h == Split(plain)
    decreases |plain|
  {
    if h.initial == [] {
      assert h.final == plain;
    } else {
      assert plain[0] == h.initial[0];
      assert plain[1..] == h.initial[1..] + h.final;
      SplitUnique(plain[1..], Halves(h.initial[1..], h.final));
      assert h.initial == [plain[0]] + h.initial[1..];
    }
  }

  /** What the pinyin dictionary reports for one Chinese character. */
  datatype Reading = Reading(toned: string, plain: string)

  /** `Pin`: a reading together with its split. */
  datatype Pin = Pin(toned: string, plain: string, halves: Halves)

  /** `Pin::new`. */
  function PinNew(r: Reading): (p: Pin)
    ensures p.toned == r.toned && p.plain == r.plain
    // the halves are the vowel cut of the plain spelling, which `SplitUnique`
    // shows is the only one
    ensures p.halves.initial + p.halves.final == r.plain
    ensures VowelFree(p.halves.initial)
    ensures p.halves.final == [] || IsVowel(p.halves.final[0])
  {
    Pin(r.toned, r.plain, Split(r.plain))
  }

  /** `CharStatus`. */
  datatype Status = Passed | Typing | TypingHalf | ErrorConsonant | ErrorVowel | Future

  /** `Character`: a glyph, its reading if it has one, and its typing status. */
  datatype Unit = Unit(glyph: char, pin: Option<Pin>, status: Status) {

    /** `is_mark`: punctuation, spaces and line breaks carry no reading. */
    predicate IsMark() {
      pin.None?
    }
  }

  /** `Character::new`. */
  function CharacterNew(c: char, pin: Option<Pin>): (u: Unit)
    ensures u.glyph == c && u.pin == pin
    ensures u.IsMark() <==> pin.None?
    ensures u.status == Future
  {
    Unit(c, pin, Future)
  }

  /** The reading of a dictionary result, converted by `Pin::new`. */
  function PinOf(r: Option<Reading>): Option<Pin> {
    match r
    case Some(x) => Some(PinNew(x))
    case None => None
  }

  function Min(a: nat, b: nat): nat {
    if a <= b then a else b
  }

  /** The `for_each` of `Passage::new`: the i-th glyph gets the i-th reading;
      glyphs left over once the readings run out are dropped. */
  function Pair(glyphs: string, readings: seq<Option<Reading>>): (units: seq<Unit>)
    ensures |units| == Min(|glyphs|, |readings|)
    ensures forall i :: 0 <= i < |units| ==>
      && units[i].glyph == glyphs[i]
      && units[i].pin == PinOf(readings[i])
      && units[i].status == Future
    decreases |glyphs|
  {
    if |glyphs| == 0 || |readings| == 0 then []
    else [CharacterNew(glyphs[0], PinOf(readings[0]))] + Pair(glyphs[1..], readings[1..])
  }

  /** `Passage::new`: a space is put in front of the text, so that the unit
      at index 0 is never typed, and `readings` are the dictionary results for
      that spaced text, one per character. */
  function PassageNew(text: string, readings: seq<Option<Reading>>): (units: seq<Unit>)
    ensures |units| == Min(|text| + 1, |readings|)
    ensures |units| > 0 ==> units[0].glyph == ' '
    ensures forall i :: 0 < i < |units| ==> units[i].glyph == text[i - 1]
    ensures forall i :: 0 <= i < |units| ==>
      && units[i].status == Future
      && (units[i].IsMark() <==> readings[i].None?)
      && (readings[i].Some? ==> units[i].pin.value.plain == readings[i].value.plain)
    // each unit carries `Pin::new` of its reading: both spellings and the split
    ensures forall i :: 0 <= i < |units| ==> units[i].pin == PinOf(readings[i])
  {
    var glyphs := [' '] + text;
    assert forall i :: 0 < i < |glyphs| ==> glyphs[i] == text[i - 1];
    Pair(glyphs, readings)
  }
}

=== FILE: text.dfy ===
/** String operations with the meaning of the Rust standard-library calls the
    trainer relies on: `char::is_whitespace`, `str::trim`, `str::split(char)`
    and `str::len` (a length in UTF-8 bytes, not in characters). */
module Text {

  /** The Unicode White_Space property, which is what `char::is_whitespace` tests. */
  predicate IsWhitespace(c: char) {
    || ('\t' <= c <= '\r')
    || c == ' '
    || c == '\U{85}'
    || c == '\U{A0}'
    || c == '\U{1680}'
    || ('\U{2000}' <= c <= '\U{200A}')
    || c == '\U{2028}'
    || c == '\U{2029}'
    || c == '\U{202F}'
    || c == '\U{205F}'
    || c == '\U{3000}'
  }

  predicate AllWhitespace(s: string) {
    forall i :: 0 <= i < |s| ==> IsWhitespace(s[i])
  }

  /** Neither end of `s` is whitespace (the empty string qualifies). */
  predicate Trimmed(s: string) {
    s == [] || (!IsWhitespace(s[0]) && !IsWhitespace(s[|s| - 1]))
  }

  /** `str::trim_start`: the longest suffix that does not start with whitespace. */
  function TrimStart(s: string): (r: string)
    ensures |r| <= |s| && r == s[|s| - |r|..]
    ensures AllWhitespace(s[..|s| - |r|])
    ensures r == [] || !IsWhitespace(r[0])
    decreases |s|
  {
    if |s| > 0 && IsWhitespace(s[0]) then TrimStart(s[1..]) else s
  }

  /** `str::trim_end`: the longest prefix that does not end with whitespace. */
  function TrimEnd(s: string): (r: string)
    ensures |r| <= |s| && r == s[..|r|]
    ensures AllWhitespace(s[|r|..])
    ensures r == [] || !IsWhitespace(r[|r| - 1])
    decreases |s|
  {
    if |s| > 0 && IsWhitespace(s[|s| - 1]) then
      var r := TrimEnd(s[..|s| - 1]);
      assert s[|r|..] == s[..|s| - 1][|r|..] + [s[|s| - 1]];
      r
    else s
  }

  /** `str::trim`: `s` with the whitespace at both ends removed. */
  function Trim(s: string): (r: string)
    ensures Trimmed(r)
    ensures |r| <= |s|
    ensures r == [] <==> AllWhitespace(s)
    ensures Trimmed(s) ==> r == s
  {
    TrimEmpty(s);
    TrimEnd(TrimStart(s))
  }

  lemma TrimEmpty(s: string)
    ensures TrimEnd(TrimStart(s)) == [] <==> AllWhitespace(s)
  {
    var t := TrimStart(s);
    TrimStartBlank(s);
    TrimEndBlank(t);
    if t != [] {
      assert !AllWhitespace(t) by {
        assert !IsWhitespace(t[0]);
      }
    }
  }

  lemma {:induction false} TrimStartBlank(s: string)
    ensures TrimStart(s) == [] <==> AllWhitespace(s)
    decreases |s|
  {
    if |s| > 0 && IsWhitespace(s[0]) {
      TrimStartBlank(s[1..]);
      assert AllWhitespace(s) <==> AllWhitespace(s[1..]) by {
        assert forall i :: 0 < i < |s| ==> s[i] == s[1..][i - 1];
      }
    }
  }

  lemma {:induction false} TrimEndBlank(s: string)
    ensures TrimEnd(s) == [] <==> AllWhitespace(s)
    decreases |s|
  {
    if |s| > 0 && IsWhitespace(s[|s| - 1]) {
      var u := s[..|s| - 1];
      TrimEndBlank(u);
      assert AllWhitespace(s) <==> AllWhitespace(u) by {
        assert forall i :: 0 <= i < |u| ==> s[i] == u[i];
      }
    }
  }

  /** Trimming strips exactly the whitespace margins put around a trimmed string. */
  lemma {:induction false} TrimPadded(a: string, x: string, b: string)
    requires AllWhitespace(a) && AllWhitespace(b) && Trimmed(x)
    ensures Trim(a + x + b) == x
  {
    if x == [] {
      assert a + x + b == a + b;
      WhitespaceConcat(a, b);
    } else {
      StartPadded(a, x + b);
      assert a + x + b == a + (x + b);
      EndPadded(x, b);
    }
  }

  lemma {:induction false} StartPadded(a: string, y: string)
    requires AllWhitespace(a) && (y == [] || !IsWhitespace(y[0]))
    ensures TrimStart(a + y) == y
    decreases |a|
  {
    if a == [] {
      assert a + y == y;
    } else {
      assert (a + y)[1..] == a[1..] + y;
      StartPadded(a[1..], y);
    }
  }

  lemma {:induction false} EndPadded(y: string, b: string)
    requires AllWhitespace(b) && (y == [] || !IsWhitespace(y[|y| - 1]))
    ensures TrimEnd(y + b) == y
    decreases |b|
  {
    if b == [] {
      assert y + b == y;
    } else {
      assert (y + b)[..|y + b| - 1] == y + b[..|b| - 1];
      EndPadded(y, b[..|b| - 1]);
    }
  }

  lemma WhitespaceConcat(a: string, b: string)
    requires AllWhitespace(a) && AllWhitespace(b)
    ensures AllWhitespace(a + b)
  {
    forall i | 0 <= i < |a + b| ensures IsWhitespace((a + b)[i]) {
      if i >= |a| { assert (a + b)[i] == b[i - |a|]; }
    }
  }

  /** `parts` joined with `sep` between neighbours (the inverse of `SplitOn`). */
  function JoinWith(parts: seq<string>, sep: char): string
    requires |parts| > 0
    decreases |parts|
  {
    if |parts| == 1 then parts[0] else parts[0] + [sep] + JoinWith(parts[1..], sep)
  }

  /** `str::split(sep)` collected into a vector: the pieces between separators,
      empty pieces included, so `n` separators give `n + 1` pieces. */
  function SplitOn(s: string, sep: char): (parts: seq<string>)
    ensures |parts| > 0
    ensures forall k :: 0 <= k < |parts| ==> sep !in parts[k]
    ensures JoinWith(parts, sep) == s
    decreases |s|
  {
    if |s| == 0 then [[]]
    else
      var rest := SplitOn(s[1..], sep);
      if s[0] == sep then
        assert ([[]] + rest)[1..] == rest;
        [[]] + rest
      else
        var parts := [[s[0]] + rest[0]] + rest[1..];
        assert |parts| > 1 ==> parts[1..] == rest[1..];
        assert s == [s[0]] + s[1..];
        parts
  }

  /** Splitting undoes joining whenever no piece contains the separator. */
  lemma {:induction false} SplitJoin(parts: seq<string>, sep: char)
    requires |parts| > 0
    requires forall k :: 0 <= k < |parts| ==> sep !in parts[k]
    ensures SplitOn(JoinWith(parts, sep), sep) == parts
    decreases |parts|
  {
    if |parts| == 1 {
      assert parts[0] + [] == parts[0];
      SplitNoSep(parts[0], [], sep);
    } else {
      SplitJoin(parts[1..], sep);
      var tail := [sep] + JoinWith(parts[1..], sep);
      assert parts[0] + [sep] + JoinWith(parts[1..], sep) == parts[0] + tail;
      SplitNoSep(parts[0], tail, sep);
      assert SplitOn(tail, sep) == [[]] + parts[1..] by {
        assert tail[1..] == JoinWith(parts[1..], sep);
      }
      assert SplitOn(tail, sep)[0] == [] && SplitOn(tail, sep)[1..] == parts[1..];
      assert parts[0] + [] == parts[0];
      assert [parts[0]] + parts[1..] == parts;
    }
  }

  /** A separator-free prefix is glued onto the first piece of what follows it. */
  lemma {:induction false} SplitNoSep(x: string, y: string, sep: char)
    requires sep !in x
    ensures SplitOn(x + y, sep) == [x + SplitOn(y, sep)[0]] + SplitOn(y, sep)[1..]
    decreases |x|
  {
    if |x| > 0 {
      assert (x + y)[1..] == x[1..] + y;
      assert (x + y)[0] == x[0];
      SplitNoSep(x[1..], y, sep);
      assert [x[0]] + (x[1..] + SplitOn(y, sep)[0]) == x + SplitOn(y, sep)[0];
    } else {
      var p := SplitOn(y, sep);
      assert x + y == y;
      assert x + p[0] == p[0];
      assert [p[0]] + p[1..] == p;
    }
  }

  /** Bytes taken by `c` in UTF-8. */
  function Utf8Width(c: char): nat {
    if c as int < 0x80 then 1
    else if c as int < 0x800 then 2
    else if c as int < 0x1_0000 then 3
    else 4
  }

  predicate IsAscii(s: string) {
    forall i :: 0 <= i < |s| ==> s[i] as int < 0x80
  }

  /** `str::len`: the UTF-8 byte length of `s`. */
  function Utf8Len(s: string): (n: nat)
    ensures |s| <= n <= 4 * |s|
    ensures IsAscii(s) ==> n == |s|
    decreases |s|
  {
    if |s| == 0 then 0 else Utf8Width(s[0]) + Utf8Len(s[1..])
  }
}

=== FILE: wrappers.dfy ===
/** Optional values and results with an error, usable with `:-`. */
module Wrappers {

  datatype Option<+T> = None | Some(value: T) {

    /** The wrapped value, or `default` when there is none (Rust's `unwrap_or`). */
    function GetOr(default: T): T {
      match this
      case Some(v) => v
      case None => default
    }
  }

  datatype Result<+T, +E> = Ok(value: T) | Err(error: E) {

    predicate IsFailure() {
      Err?
    }

    function PropagateFailure<U>(): Result<U, E>
      requires Err?
    {
      Err(error)
    }

    function Extract(): T
      requires Ok?
    {
      value
    }
  }
}
